=== FILE: README.md ===
# cut&play sample engine in Dafny

This project models the sample-transformation core of the cut&play audio editor: the effects of
`WaveEffect` (silence trimming with `autoCut`, `amplify` on the whole wave or on a window,
`addOffset`, `fadeIn`, `fadeOut`, the byte-wise `add` and `subtract` mixers and `cutWave`), and the
`Track` record (its global id counter, three constructors, the length in seconds, and the list
label with its " (modified)" suffix).

The effects are stated over the wave buffer they run on (`Wave.java`). That buffer is modelled on
its bytes:
- 16-bit little-endian samples are decoded as `(hi << 8) | (lo & 255)`.
- Writing back saturates each byte separately, so an overflow reads back as 32639 and an underflow
  as -32640.
- `modify` walks whole byte pairs, and `cut` counts bytes.
- The iterator that `autoCut` scans with skips sample 0.
- Java `int` wrap-around, the `(int)` casts (toward zero) and the byte saturation are written out
  explicitly. This includes the byte rate `rate * resolution`, an `int` product that wraps once
  the rate reaches 2^30 in magnitude.

Modules:
- `Options` (options.dfy): an optional value.
- `Pcm` (pcm.dfy): Java widths and the sample codec.
- `Waves` (waves.dfy): the wave buffer and its primitives.
- `WaveEffect` (effects.dfy): amplify, offset, fades, mixing and cut.
- `SilenceCut` (autocut.dfy): `autoCut`.
- `Tracks` (track.dfy): the track record, the id counter and the label.

On equal lengths, `add` and `subtract` combine into the second argument. `fadeOut`'s staircase starts one window
after `fromTime`.

## Model

| member | source | states |
|---|---|---|
| Pcm.Wrap32 | src/wave/WaveEffect.java:68-70 | Java `int` addition: the result is in the `int` range, congruent to the exact sum modulo 2^32, and equal to it when no overflow occurs |
| WaveEffect.TruncDiv | src/wave/WaveEffect.java:80 | the `(int)` of a quotient: its magnitude is the floor of the exact magnitude, and its sign is the quotient's |
| WaveEffect.ScaleAttenuates | src/wave/WaveEffect.java:79-81 | scaling by 0 to 100 percent never grows a sample and keeps its sign |
| WaveEffect.CutWave | src/wave/WaveEffect.java:16-18 | `cutWave` removes exactly the byte range `[start, start + duration)` |
| WaveEffect.AddOffset | src/wave/WaveEffect.java:68-70 | where the whole-wave window covers the wave (a rate of non-zero magnitude below 2^30), each sample becomes the Java `int` sum, wrapped at 32 bits and then saturated on writing, and it is the exact sum exactly when that sum is in the 16-bit range; otherwise (rate 0, or a byte rate that wraps) every sample is unchanged |
| WaveEffect.AddOffsetWrapsAround | src/wave/WaveEffect.java:68-70 | the sum wraps before it is written: 32767 shifted by the largest `int` reads back as -32640 where the whole-wave window covers the wave, and stays 32767 where it covers nothing (rate 0, or a wrapped byte rate) |
| WaveEffect.AddOffsetZero | src/wave/WaveEffect.java:68-70 | a zero offset leaves every sample unchanged |
| WaveEffect.AddOffsetInverse | src/wave/WaveEffect.java:68-70 | shifting by `d` and then by `-d` restores every sample when the first shift did not saturate |
| WaveEffect.Amplify | src/wave/WaveEffect.java:79-81 | where the whole-wave window covers the wave (a rate of non-zero magnitude below 2^30), every sample becomes the clipped, truncated percentage; otherwise (rate 0, or a byte rate that wraps) every sample is unchanged; at 0 to 100 percent no sample grows |
| WaveEffect.AmplifyHundredIsIdentity | src/wave/WaveEffect.java:79-81 | amplifying by 100 percent keeps every sample, and every byte of an even-length buffer |
| WaveEffect.AmplifyZeroSilences | src/wave/WaveEffect.java:79-81 | amplifying by 0 percent makes every sample 0 where the whole-wave window covers the wave (a rate of non-zero magnitude below 2^30), and changes nothing otherwise (rate 0, or a byte rate that wraps) |
| WaveEffect.AmplifyWindow | src/wave/WaveEffect.java:92-94 | only samples inside the window change; for every percentage each becomes its scaled value, saturated on writing, and at 0 to 100 percent no saturation happens |
| WaveEffect.FadeIn | src/wave/WaveEffect.java:102-116 | after the chained passes, sample `k` is scaled by the staircase level: 0 in window 0, `i` percent in window `i`, and unchanged after window 99 |
| WaveEffect.FadeOutFrom | src/wave/WaveEffect.java:128-135 | the chained loop from 99 down to 0 percent leaves sample `k` scaled by the level of the window it falls in |
| WaveEffect.FadeOut | src/wave/WaveEffect.java:124-138 | where the whole-wave window covers the wave (a rate of non-zero magnitude below 2^30), sample `k` is scaled by the fade-out gain of a staircase that starts one window after `from`; otherwise (rate 0, or a byte rate that wraps) every sample is unchanged |
| WaveEffect.FadeOutNeverSilent | src/wave/WaveEffect.java:125-135 | when the fade is a whole number of windows, no sample from `from` on reaches 0 percent, and the last is scaled by exactly 1 percent |
| WaveEffect.FadeOutIntended | src/wave/WaveEffect.java:124-138 | corrected fade-out: the staircase starts at `from` |
| WaveEffect.FadeOutIntendedEndsSilent | src/wave/WaveEffect.java:124-138 | corrected fade-out: the gain never rises from `from` to the end, and the last window is silent |
| WaveEffect.Combine | src/wave/WaveEffect.java:146-166 | the result has the longer length and the base's rate; overlapping bytes are saturated sums or differences with the base's byte first |
| WaveEffect.AddCommutesOnBytes | src/wave/WaveEffect.java:146-152 | `add(a, b)` and `add(b, a)` have equal bytes |
| WaveEffect.SubtractLongerMinusShorter | src/wave/WaveEffect.java:160-166 | with unequal lengths the argument order of `subtract` does not matter |
| WaveEffect.SubtractEqualLengths | src/wave/WaveEffect.java:160-166 | with equal lengths `subtract(wave1, wave2)` takes `wave1` from `wave2`, byte by byte |
| WaveEffect.CombineSilence | src/wave/WaveEffect.java:146-166 | mixing in a shorter all-zero wave leaves the other wave's bytes unchanged |
| WaveEffect.AddDropsCarry | src/wave/WaveEffect.java:146-152 | mixing is byte-wise: the samples 255 and 1 add up to 0, not 256 |
| SilenceCut.QuietMatchesThreshold | src/wave/WaveEffect.java:28-39 | the integer quiet test equals the comparison against `65536 * percentage / 100` |
| SilenceCut.QuietExtremes | src/wave/WaveEffect.java:28-39 | at 0 percent no sample is quiet; at 100 percent every sample is |
| SilenceCut.RunBefore | src/wave/WaveEffect.java:39-44 | the quiet run before an index: all its samples are quiet, and the sample before it is loud |
| SilenceCut.FirstCandidate | src/wave/WaveEffect.java:38-57 | the scan stops at the first loud sample that ends a quiet run longer than the minimum, or finds none exactly when no such sample exists |
| SilenceCut.ScanForCandidate | src/wave/WaveEffect.java:30-57 | for a minimum of 0 or more, the loop with its three counters finds exactly the first candidate; for a negative minimum it stops at the first sample with an empty run |
| SilenceCut.ExciseInSeconds | src/wave/WaveEffect.java:49-51 | at a rate whose byte rate does not wrap, the cut's seconds arguments convert back to twice the sample counts, as byte counts |
| SilenceCut.ExciseWhenWrapped | src/wave/WaveEffect.java:49-51 | once the byte rate wraps, the cut's duration converts back to at most minus twice the run, so the cut lengthens the buffer |
| SilenceCut.NegativeMinimumRepeats | src/wave/WaveEffect.java:31-59 | with a negative minimum the scan stops at the first sample it reads, and cutting out the empty run there gives back the same wave |
| SilenceCut.ExciseQuietRun | src/wave/WaveEffect.java:48-51 | the excision removes exactly the quiet run, never sample 0: it takes out quiet samples only and keeps every loud sample in order |
| SilenceCut.AutoCut | src/wave/WaveEffect.java:27-60 | as written: keeps the rate, the first sample and all loud samples in order, and every sample it takes out is quiet |
| SilenceCut.AutoCutKeepsQuietTail | src/wave/WaveEffect.java:38-59 | a quiet stretch the wave ends in, with no loud sample after it, is still at the end of the result |
| SilenceCut.AutoCutStops | src/wave/WaveEffect.java:30-59 | without a candidate the wave comes back unchanged; with one it comes back strictly shorter |
| SilenceCut.AutoCutLeavesLongRun | src/wave/WaveEffect.java:29-59 | as written, a wave can come back still holding a quiet run longer than the minimum that a loud sample ends |
| SilenceCut.AutoCutAt | src/wave/WaveEffect.java:27-60 | trimming with a fixed threshold keeps sample 0 and the loud samples, takes out quiet samples only, and leaves no candidate |
| SilenceCut.AutoCutAtIsTrim | src/wave/WaveEffect.java:21-60 | the trimming loop equals a one-pass trim: each quiet run longer than the minimum that a loud sample ends is removed, and every other run, the final one included, is kept whole |
| SilenceCut.AutoCutIntended | src/wave/WaveEffect.java:21-60 | corrected: the threshold is converted once; the result is the one-pass trim, so only the quiet runs longer than the minimum that a loud sample ends are removed, and no candidate remains |
| SilenceCut.AutoCutIntendedIdempotent | src/wave/WaveEffect.java:27-60 | corrected trimming of a trimmed wave changes nothing |
| SilenceCut.QuietTailNeverCut | src/wave/WaveEffect.java:38-57 | quiet samples at the very end never form a candidate |
| Tracks.IntOfFloat | src/mod/Track.java:98 | the `(int)` of the float sample rate truncates toward zero, saturating at the `int` range |
| Tracks.UpdateLength | src/mod/Track.java:97-103 | the length times the bytes per second is the data length; there is no finite length exactly when the byte rate is 0 |
| Tracks.GetLengthIsStored | src/mod/Track.java:88-90 | the recomputed length equals the one stored when the track was built |
| Tracks.LengthAdds | src/mod/Track.java:97-103 | the length of joined data is the sum of the two lengths |
| Tracks.LengthNonNegative | src/mod/Track.java:97-103 | for a positive format without overflow, the length exists and is not negative |
| Tracks.NewTrack | src/mod/Track.java:12-34 | the track takes the counter's value as its id; the counter moves on by one, wrapping as a Java `int` |
| Tracks.Ingest | src/mod/Track.java:43-45 | an ingested track keeps the given name, data and format, and is not modified |
| Tracks.Derive | src/mod/Track.java:53-55 | a derived track copies the name and format, takes the new data, and is modified |
| Tracks.DeriveKeepsLength | src/mod/Track.java:53-55 | deriving with the same data keeps the length |
| Tracks.SessionIds | src/mod/Track.java:12-28 | below the top of the `int` range, a run of constructions hands out consecutive ids from the counter on |
| Tracks.IdsIncreaseFromOne | src/mod/Track.java:12-28 | the first track gets id 1, and ids strictly increase, so none is reused |
| Tracks.CounterWraps | src/mod/Track.java:28 | after id 2^31 - 1 the counter wraps to -2^31 |
| Tracks.DecimalRoundTrip | src/mod/Track.java:111-114 | the decimal text of an id reads back as that id |
| Tracks.ToString | src/mod/Track.java:109-116 | the label is the id's decimal text, ": ", the name, " |" and the length text, at those positions, followed by " s" and, for a modified track, " (modified)" |
| Tracks.ModifiedSuffix | src/mod/Track.java:109-116 | the label ends in " (modified)" exactly when the track is modified; otherwise the two labels agree |
| Tracks.LabelsIdentifyTracks | src/mod/Track.java:109-116 | two labels are equal only when the ids are equal |

## Sample buffer

The members below model the wave buffer in `cut&play/src/wave/Wave.java`, which the effects run
on. The middle column gives the lines of that file.

| member | lines | states |
|---|---|---|
| Pcm.Decode | 129 | a byte pair decodes to a signed 16-bit value whose low byte is the low byte read |
| Pcm.Clip | 139-150 | the value read back after writing: always 16-bit, equal to the written value exactly when that value is in the 16-bit range, 32639 after an overflow and -32640 after an underflow |
| Pcm.EncodeClip | 139-150 | the bytes written for a mapped value decode to the clipped value: 32639 for overflow, -32640 for underflow |
| Pcm.EncodeDecode | 129-148 | writing back a sample just read reproduces both original bytes |
| Pcm.Samples | 127-129 | a buffer holds one 16-bit sample per complete byte pair |
| Pcm.SamplesAppend | 127-129 | splitting a buffer at an even offset splits its samples at half that offset |
| Waves.Iterated | 259-274 | the iterator yields every sample but the first, in order |
| Waves.ByteRate | 232-234 | the `int` product `rate * 2`: it equals `2 * rate` exactly when the rate lies in `[-2^30, 2^30)` |
| Waves.LengthSecondsRoundTrip | 245-257 | at a non-zero rate below 2^30 in magnitude, converting units to seconds and back gives the units again; with a wrapped byte rate a positive length comes back as minus that length or less |
| Waves.MapsWholeExactly | 109-111 | the whole-wave window is positive exactly at the non-zero rates below 2^30 in magnitude |
| Waves.WholeWindow | 109-111 | the whole-wave window, the byte length times the rate over the wrapped byte rate, is at least the sample count where it is positive, and never positive otherwise |
| Waves.Copy | 100-102 | a copy equals the original |
| Waves.Cut | 70-94 | the bytes before the start are kept, `duration` bytes are dropped, and the rest move up; the rate is kept |
| Waves.CutSamples | 70-94 | cutting an even number of bytes at an even offset removes exactly that run of whole samples |
| Waves.Modify | 120-161 | samples inside the window become the clipped mapped value; samples outside keep their value; the length and rate are kept; an odd trailing byte reads as 0 |
| Waves.ModifyAll | 109-111 | where the whole-wave window covers the wave (a rate of non-zero magnitude below 2^30), every sample becomes the clipped mapped value; otherwise (rate 0, or a byte rate that wraps) the window is NaN or negative and every sample is unchanged |
| Waves.ModifyAllIdentityBytes | 109-161 | mapping each sample to itself rewrites every complete pair with its own bytes; only an odd trailing byte is lost |
| Waves.Mix | 168-217 | fails exactly when the other wave is longer; otherwise each overlapping byte is the saturated sum or difference, and the other bytes of the base are kept |

## Left out

- Time arguments are in whole units. `Modify` windows count samples and `Cut` counts bytes. The
  source converts seconds in floating point. Its loops run while a counter stays above 0, so a
  fractional start or duration `x` covers `ceil(x)` units. Consecutive fade windows with a
  fractional width can then share a sample, which is scaled twice. The model does not track this.
- SilenceCut.ExciseInSeconds: holds over exact reals only. In doubles the start can come out a
  rounding step above `2 * (total - run)` (rate 8000, total 10, run 1 gives 18.000000000000004).
  The `startTime > 0` loop of `cut` then copies 19 bytes, which shifts every later byte pair. A
  duration just below `2 * run` makes the `(int)` array size one larger, leaving a trailing zero
  byte. The model cuts exactly the doubled sample counts.
- FadeIn: the window width is `toTime / 100` in whole samples, rounded down, so up to 99 samples
  after the last window keep their value. The same holds for FadeOut and `FadeOutStep`.
- Amplify, AmplifyWindow, FadeIn, FadeOutFrom, FadeOut: the source scales through a double, `a * (percentage / 100.0)`. The model uses the exact
  integer quotient, which can differ by one where the double rounds down (57 percent).
- AutoCut: requires `minDuration >= 0`. With a negative minimum `cutTimeSave` starts at 0, so the
  first sample scanned already qualifies even when it is quiet. The cut then removes 0 bytes and the
  recursion repeats on the same wave without end. Only a wave under 4 bytes returns at once.
- AutoCut: requires `0 < w.rate < 2^30`. At rate 0 `secondsFromLength` divides by zero, the cut
  gets NaN and removes nothing, and the recursion never ends. A negative rate turns a positive
  minimum negative, which recurses without end as a negative minimum does. From 2^30 on the byte rate wraps negative, and
  the cut's negative duration makes the buffer longer by at least twice the run, in zero bytes
  (ExciseWhenWrapped). With a minimum of 0 that repeats without end. With a positive minimum the
  threshold is multiplied by `rate / 2` at every level, and in the end the lengthened wave comes back. The model does
  not describe that growth.
- AutoCutStops: requires `0 < w.rate < 2^30`, as AutoCut does. From 2^30 on the source can return a
  longer wave, not a shorter one.
- AutoCutKeepsQuietTail: requires `0 < w.rate < 2^30`, as AutoCut does. From 2^30 on the source
  appends zero bytes after the tail.
- AutoCutIntended: requires `w.rate > 0`, and converts the cut with an exact byte rate, which is
  part of the correction. AutoCutIntendedIdempotent carries the same precondition.
- SilenceCut.AutoCut: states that only quiet samples go, that loud samples and sample 0 stay, and
  that a quiet tail stays. It does not state which other quiet runs survive, because the threshold
  changes at every level. The fixed-threshold AutoCutAt has the exact one-pass description.
- AutoCut: the UI checks that the percentage lies in 0..100 before the call. The model accepts any
  percentage.
- FadeOut: `from` is a whole number of samples, not below 0. The UI passes `fromTime` unchecked, and
  `modify` treats a negative window start as 0 while keeping the full width. Every window that
  starts below 0 then scales the samples `[0, step)` again. For example, 100 units faded from -100
  scale samples 0 and 1 by 99 percent, then 98 percent, and so on down to 50 percent. The model
  does not describe negative times.
- CutWave: `start` and `duration` are not below 0. In the source a negative duration makes the
  `(int)` array size larger, which appends zero bytes. The model does not describe this.
- Waves.Cut: requires the dropped range to lie inside the buffer. Otherwise the source throws an
  array-index or negative-size exception, which is not modelled.
- The resolution field is fixed at 2 by the factory and is not a field of the model.
- Waves.Mix: the model returns no wave where `Wave.add` and `Wave.subtract` throw. `add` and
  `subtract` in `WaveEffect` never reach that case.
- Tracks.ToString: the length text is a parameter. `String.format("%.02f")` and double formatting
  are not modelled.
- Tracks.UpdateLength: a zero byte rate has no length. Java gives infinity or NaN there.
- Tracks.IntOfFloat: treats the sample rate as an exact real, so float rounding and NaN are not
  modelled.
- `Track.getData` hands out the internal array, so a caller could change it. The model's tracks are
  immutable values.
- The counter is explicit state passed through the constructors. Concurrent construction is not
  modelled.
- The Swing UI, the converter, the player and the modifier are not part of this model, and neither
  is the `toTrack`/`createWave` bridge.

## Findings

| source | as written | input that shows it | evidently intended | confidence | as-written member | corrected member |
|---|---|---|---|---|---|---|
| src/wave/WaveEffect.java:29,59 | `minDuration` is converted from seconds to units and the converted value is passed to the recursive call, which converts it again; after the first cut the threshold is multiplied by `rate` over 2 at each level | rate 8, minimum 0.125 s, 1 percent, samples 2560, 0, 2560, 0, 2560: the first quiet sample is cut and the second, an equally long run, is kept | every quiet run longer than the minimum that a loud sample ends is removed, with one threshold throughout | high, not executed | SilenceCut.AutoCut, SilenceCut.AutoCutLeavesLongRun | SilenceCut.AutoCutIntended, SilenceCut.AutoCutIntendedIdempotent |
| src/wave/WaveEffect.java:126-135 | `startTime += duration` runs before the loop, so the 99 percent window starts one window after `fromTime`, and the 0 percent window starts at the end of the wave | 200 samples, fade from sample 100: sample 100 is not faded and sample 199 keeps 1 percent | the staircase starts at `fromTime` and its last window is silent | medium, not executed | WaveEffect.FadeOut, WaveEffect.FadeOutNeverSilent | WaveEffect.FadeOutIntended, WaveEffect.FadeOutIntendedEndsSilent |

=== FILE: autocut.dfy ===
/** Silence trimming, `autoCut` of src/wave/WaveEffect.java: scan the wave for
    a quiet run that a loud sample ends and that is longer than the minimum
    duration, cut the first such run out and start over on the shorter wave. */
module SilenceCut {
  import opened Options
  import opened Pcm
  import opened Waves

  /** A sample is quiet when its magnitude is below `65536 * percentage / 100`,
      compared in integers. */
  predicate Quiet(sample: int, percentage: int) {
    100 * Abs(sample) < 65536 * percentage
  }

  /** The integer comparison is the source's comparison against the threshold
      `65536 * (percentage / 100.0)`, read in exact arithmetic. */
  lemma QuietMatchesThreshold(sample: int, percentage: int)
    ensures Quiet(sample, percentage) <==> (Abs(sample) as real) < 65536.0 * (percentage as real / 100.0)
  {
  }

  /** At zero percent nothing is quiet; at a hundred percent every 16-bit
      sample is. */
  lemma QuietExtremes(sample: int)
    requires -32768 <= sample <= 32767
    ensures !Quiet(sample, 0)
    ensures Quiet(sample, 100)
  {
  }

  /** The length of the quiet run that ends just before index `k`. */
  function RunBefore(s: seq<int>, k: nat, percentage: int): (r: nat)
    requires k <= |s|
    ensures r <= k
    ensures forall j :: k - r <= j < k ==> Quiet(s[j], percentage)
    ensures r < k ==> !Quiet(s[k - r - 1], percentage)
  {
    if k == 0 || !Quiet(s[k - 1], percentage) then 0 else RunBefore(s, k - 1, percentage) + 1
  }

  /** Sample `j` is loud and ends a quiet run longer than `minDuration`. */
  predicate EndsLongRun(s: seq<int>, j: nat, minDuration: real, percentage: int)
    requires j < |s|
  {
    !Quiet(s[j], percentage) && RunBefore(s, j, percentage) as real > minDuration
  }

  /** Where the scan stops: `total` samples were read, the last of them loud,
      and the `run` samples before it were quiet. */
  datatype Candidate = Candidate(total: nat, run: nat)

  /** The first loud sample from index `k` on that ends a long quiet run. */
  function CandidateFrom(s: seq<int>, k: nat, minDuration: real, percentage: int): (r: Option<Candidate>)
    requires k <= |s|
    ensures r.Some? ==> k < r.value.total <= |s|
    decreases |s| - k
  {
    if k == |s| then None
    else if EndsLongRun(s, k, minDuration, percentage) then Some(Candidate(k + 1, RunBefore(s, k, percentage)))
    else CandidateFrom(s, k + 1, minDuration, percentage)
  }

  /** The scan from `k` stops at the first sample that ends a long quiet run,
      and finds nothing exactly when no such sample follows. */
  lemma {:induction false} CandidateFromIsFirst(s: seq<int>, k: nat, minDuration: real, percentage: int)
    requires k <= |s|
    ensures CandidateFrom(s, k, minDuration, percentage).None? <==>
      forall j :: k <= j < |s| ==> !EndsLongRun(s, j, minDuration, percentage)
    ensures CandidateFrom(s, k, minDuration, percentage).Some? ==>
      var c := CandidateFrom(s, k, minDuration, percentage).value;
      && EndsLongRun(s, c.total - 1, minDuration, percentage)
      && c.run == RunBefore(s, c.total - 1, percentage)
      && forall j :: k <= j < c.total - 1 ==> !EndsLongRun(s, j, minDuration, percentage)
    decreases |s| - k
  {
    if k < |s| && !EndsLongRun(s, k, minDuration, percentage) {
      CandidateFromIsFirst(s, k + 1, minDuration, percentage);
    }
  }

  /** The first loud sample of the scan that ends a quiet run longer than
      `minDuration`; a quiet run that no loud sample ends is never a candidate. */
  function FirstCandidate(s: seq<int>, minDuration: real, percentage: int): (r: Option<Candidate>)
    ensures r.None? <==> forall j :: 0 <= j < |s| ==> !EndsLongRun(s, j, minDuration, percentage)
    ensures r.Some? ==>
      && 0 < r.value.total <= |s|
      && !Quiet(s[r.value.total - 1], percentage)
      && r.value.run as real > minDuration
      && r.value.run < r.value.total
      && (forall j :: r.value.total - 1 - r.value.run <= j < r.value.total - 1 ==> Quiet(s[j], percentage))
      && (r.value.total - 1 - r.value.run == 0 || !Quiet(s[r.value.total - 2 - r.value.run], percentage))
      && forall j :: 0 <= j < r.value.total - 1 ==> !EndsLongRun(s, j, minDuration, percentage)
  {
    CandidateFromIsFirst(s, 0, minDuration, percentage);
    CandidateFrom(s, 0, minDuration, percentage)
  }

  /** The scan loop of `autoCut`, with its three counters: `cutTime` counts the
      current quiet run, `cutTimeSave` keeps the run the last loud sample
      ended, and `totalTime` counts the samples read. A negative minimum is
      already exceeded by the initial `cutTimeSave` of 0, so the loop stops
      after the first sample, quiet or loud, with an empty run. */
  method ScanForCandidate(s: seq<int>, minDuration: real, percentage: int) returns (found: Option<Candidate>)
    ensures minDuration >= 0.0 ==> found == FirstCandidate(s, minDuration, percentage)
    ensures minDuration < 0.0 ==> found == if |s| == 0 then None else Some(Candidate(1, 0))
  {
    var cutTime: nat := 0;
    var cutTimeSave: nat := 0;
    var totalTime: nat := 0;
    while totalTime < |s|
      invariant totalTime <= |s|
      invariant minDuration < 0.0 ==> totalTime == 0 && cutTimeSave == 0
      invariant Scan(s, 0, 0, 0, minDuration, percentage)
             == Scan(s, totalTime, cutTime, cutTimeSave, minDuration, percentage)
    {
      var i := s[totalTime];
      if Quiet(i, percentage) {
        cutTime := cutTime + 1;
      } else {
        cutTimeSave := cutTime;
        cutTime := 0;
      }
      totalTime := totalTime + 1;
      if cutTimeSave as real > minDuration {
        found := Some(Candidate(totalTime, cutTimeSave));
        if minDuration >= 0.0 {
          ScanIsFirstCandidate(s, minDuration, percentage);
        }
        return;
      }
    }
    found := None;
    if minDuration >= 0.0 {
      ScanIsFirstCandidate(s, minDuration, percentage);
    }
  }

  /** The scan from sample `t` with the counters at `cut` and `save`, one
      sample per step, as the loop runs it. */
  function Scan(s: seq<int>, t: nat, cut: nat, save: nat, minDuration: real, percentage: int): Option<Candidate>
    requires t <= |s|
    decreases |s| - t
  {
    if t == |s| then None
    else
      var quiet := Quiet(s[t], percentage);
      var cut', save' := if quiet then cut + 1 else 0, if quiet then save else cut;
      if save' as real > minDuration then Some(Candidate(t + 1, save'))
      else Scan(s, t + 1, cut', save', minDuration, percentage)
  }

  /** While the saved run has not exceeded the minimum and `cut` is the quiet
      run before `t`, the scan finds the first candidate from `t` on. */
  lemma {:induction false} ScanFrom(s: seq<int>, t: nat, cut: nat, save: nat, minDuration: real, percentage: int)
    requires t <= |s| && cut == RunBefore(s, t, percentage) && save as real <= minDuration
    ensures Scan(s, t, cut, save, minDuration, percentage) == CandidateFrom(s, t, minDuration, percentage)
    decreases |s| - t
  {
    if t < |s| {
      if Quiet(s[t], percentage) {
        ScanQuietStep(s, t, cut, save, minDuration, percentage);
        ScanFrom(s, t + 1, cut + 1, save, minDuration, percentage);
      } else {
        ScanLoudStep(s, t, cut, save, minDuration, percentage);
        if cut as real <= minDuration {
          ScanFrom(s, t + 1, 0, cut, minDuration, percentage);
        }
      }
    }
  }

  /** A quiet sample extends the run and never ends the search. */
  lemma ScanQuietStep(s: seq<int>, t: nat, cut: nat, save: nat, minDuration: real, percentage: int)
    requires t < |s| && Quiet(s[t], percentage)
    requires cut == RunBefore(s, t, percentage) && save as real <= minDuration
    ensures RunBefore(s, t + 1, percentage) == cut + 1
    ensures Scan(s, t, cut, save, minDuration, percentage) == Scan(s, t + 1, cut + 1, save, minDuration, percentage)
    ensures CandidateFrom(s, t, minDuration, percentage) == CandidateFrom(s, t + 1, minDuration, percentage)
  {
  }

  /** A loud sample saves the run it ends; the search stops there exactly when
      that run is longer than the minimum. */
  lemma ScanLoudStep(s: seq<int>, t: nat, cut: nat, save: nat, minDuration: real, percentage: int)
    requires t < |s| && !Quiet(s[t], percentage)
    requires cut == RunBefore(s, t, percentage)
    ensures RunBefore(s, t + 1, percentage) == 0
    ensures cut as real > minDuration ==>
      Scan(s, t, cut, save, minDuration, percentage) == Some(Candidate(t + 1, cut)) == CandidateFrom(s, t, minDuration, percentage)
    ensures cut as real <= minDuration ==>
      && Scan(s, t, cut, save, minDuration, percentage) == Scan(s, t + 1, 0, cut, minDuration, percentage)
      && CandidateFrom(s, t, minDuration, percentage) == CandidateFrom(s, t + 1, minDuration, percentage)
  {
  }

  lemma ScanIsFirstCandidate(s: seq<int>, minDuration: real, percentage: int)
    requires minDuration >= 0.0
    ensures Scan(s, 0, 0, 0, minDuration, percentage) == FirstCandidate(s, minDuration, percentage)
  {
    ScanFrom(s, 0, 0, 0, minDuration, percentage);
  }

  /** With a negative minimum the scan stops at the first sample it reads,
      and cutting out that empty run gives back the same wave, so `autoCut`
      calls itself on an unchanged wave again. */
  lemma NegativeMinimumRepeats(w: Wave, minDuration: real, percentage: int)
    requires minDuration < 0.0 && |Iterated(w)| > 0
    ensures Scan(Iterated(w), 0, 0, 0, minDuration, percentage) == Some(Candidate(1, 0))
    ensures Excise(w, Candidate(1, 0)) == w
  {
    assert w.data[..2] + w.data[2..] == w.data;
  }

  /** The loud samples of a sequence, in order. */
  function LoudSamples(s: seq<int>, percentage: int): seq<int> {
    if |s| == 0 then []
    else (if Quiet(s[0], percentage) then [] else [s[0]]) + LoudSamples(s[1..], percentage)
  }

  /** `r` is `s` with some quiet samples taken out: the samples of `r` are
      samples of `s`, in order, and every sample of `s` left out is quiet. */
  predicate DropsOnlyQuiet(s: seq<int>, r: seq<int>, percentage: int)
    decreases |s|
  {
    if |s| == 0 then r == []
    else
      || (Quiet(s[0], percentage) && DropsOnlyQuiet(s[1..], r, percentage))
      || (|r| > 0 && r[0] == s[0] && DropsOnlyQuiet(s[1..], r[1..], percentage))
  }

  lemma {:induction false} DropsNothing(s: seq<int>, percentage: int)
    ensures DropsOnlyQuiet(s, s, percentage)
    decreases |s|
  {
    if |s| > 0 {
      DropsNothing(s[1..], percentage);
    }
  }

  lemma {:induction false} DropsQuietRun(q: seq<int>, percentage: int)
    requires forall j :: 0 <= j < |q| ==> Quiet(q[j], percentage)
    ensures DropsOnlyQuiet(q, [], percentage)
    decreases |q|
  {
    if |q| > 0 {
      DropsQuietRun(q[1..], percentage);
    }
  }

  lemma {:induction false} DropsAppend(a: seq<int>, a': seq<int>, b: seq<int>, b': seq<int>, percentage: int)
    requires DropsOnlyQuiet(a, a', percentage) && DropsOnlyQuiet(b, b', percentage)
    ensures DropsOnlyQuiet(a + b, a' + b', percentage)
    decreases |a|
  {
    if |a| == 0 {
      assert a + b == b && a' + b' == b';
    } else {
      assert (a + b)[0] == a[0] && (a + b)[1..] == a[1..] + b;
      if Quiet(a[0], percentage) && DropsOnlyQuiet(a[1..], a', percentage) {
        DropsAppend(a[1..], a', b, b', percentage);
      } else {
        assert (a' + b')[0] == a'[0] && (a' + b')[1..] == a'[1..] + b';
        DropsAppend(a[1..], a'[1..], b, b', percentage);
      }
    }
  }

  /** Taking out quiet samples twice takes out quiet samples. */
  lemma {:induction false} DropsTransitive(s: seq<int>, r: seq<int>, t: seq<int>, percentage: int)
    requires DropsOnlyQuiet(s, r, percentage) && DropsOnlyQuiet(r, t, percentage)
    ensures DropsOnlyQuiet(s, t, percentage)
    decreases |s|
  {
    if |s| > 0 {
      if Quiet(s[0], percentage) && DropsOnlyQuiet(s[1..], r, percentage) {
        DropsTransitive(s[1..], r, t, percentage);
      } else if Quiet(r[0], percentage) && DropsOnlyQuiet(r[1..], t, percentage) {
        DropsTransitive(s[1..], r[1..], t, percentage);
      } else {
        DropsTransitive(s[1..], r[1..], t[1..], percentage);
      }
    }
  }

  /** Taking out quiet samples never loses a loud one. */
  lemma {:induction false} DropsKeepsLoud(s: seq<int>, r: seq<int>, percentage: int)
    requires DropsOnlyQuiet(s, r, percentage)
    ensures LoudSamples(r, percentage) == LoudSamples(s, percentage)
    decreases |s|
  {
    if |s| > 0 {
      if Quiet(s[0], percentage) && DropsOnlyQuiet(s[1..], r, percentage) {
        DropsKeepsLoud(s[1..], r, percentage);
      } else {
        DropsKeepsLoud(s[1..], r[1..], percentage);
      }
    }
  }

  /** The cut `autoCut` makes for a candidate: its position and length are
      doubled from sample counts into byte counts. */
  function Excise(w: Wave, c: Candidate): Wave
    requires c.run <= c.total && 2 * c.total <= |w.data|
  {
    Cut(w, 2 * (c.total - c.run), 2 * c.run)
  }

  /** The source computes the cut in seconds, `2 * (totalTimeSave - cutTimeSave)`
      from `2 * cutTimeSave`. Read over exact reals, the cut converts these back
      to the doubled sample counts; in double arithmetic they can land one
      rounding step away from them. */
  lemma ExciseInSeconds(rate: Int32, c: Candidate)
    requires ExactRate(rate)
    ensures LengthFromSeconds(rate, 2.0 * (SecondsFromLength(rate, c.total) - SecondsFromLength(rate, c.run)))
         == (2 * (c.total - c.run)) as real
    ensures LengthFromSeconds(rate, 2.0 * SecondsFromLength(rate, c.run)) == (2 * c.run) as real
  {
    assert ByteRate(rate) == 2 * (rate as int);
  }

  /** Once the byte rate wraps, the duration the cut converts back is
      negative, at most minus the doubled run: `new byte[length - (int) duration]`
      then grows the buffer instead of shrinking it. */
  lemma ExciseWhenWrapped(rate: Int32, c: Candidate)
    requires rate >= 0x4000_0000 && c.run > 0
    ensures LengthFromSeconds(rate, 2.0 * SecondsFromLength(rate, c.run)) <= -((2 * c.run) as real)
  {
    assert 2.0 * SecondsFromLength(rate, c.run) == SecondsFromLength(rate, 2 * c.run);
    LengthSecondsRoundTrip(rate, 2 * c.run);
  }

  /** Because the iterator skips sample 0, the loud sample the scan stops at
      is sample `total` of the wave and the quiet run before it is samples
      `total - run` to `total - 1`; sample 0 is never part of it. */
  lemma CandidateInWave(w: Wave, c: Candidate, minDuration: real, percentage: int)
    requires minDuration >= 0.0
    requires FirstCandidate(Iterated(w), minDuration, percentage) == Some(c)
    ensures 1 <= c.run && 1 <= c.total - c.run && c.total < |SamplesOf(w)|
    ensures 2 * c.total <= |w.data|
    ensures forall j :: c.total - c.run <= j < c.total ==> Quiet(SamplesOf(w)[j], percentage)
    ensures !Quiet(SamplesOf(w)[c.total], percentage)
  {
    var s, it := SamplesOf(w), Iterated(w);
    forall j | c.total - c.run <= j < c.total
      ensures Quiet(s[j], percentage)
    {
      assert s[j] == it[j - 1];
    }
  }

  lemma ExciseSamples(w: Wave, c: Candidate)
    requires c.run <= c.total && 2 * c.total <= |w.data|
    ensures SamplesOf(Excise(w, c)) == SamplesOf(w)[..c.total - c.run] + SamplesOf(w)[c.total..]
  {
    CutSamples(w, c.total - c.run, c.run);
  }

  /** The excision removes exactly that quiet run: nothing loud, never
      sample 0, and at least one sample. */
  lemma ExciseQuietRun(w: Wave, c: Candidate, minDuration: real, percentage: int)
    requires minDuration >= 0.0
    requires FirstCandidate(Iterated(w), minDuration, percentage) == Some(c)
    ensures 1 <= c.run && 1 <= c.total - c.run && c.total < |SamplesOf(w)|
    ensures 2 * c.total <= |w.data|
    ensures SamplesOf(Excise(w, c)) == SamplesOf(w)[..c.total - c.run] + SamplesOf(w)[c.total..]
    ensures |Excise(w, c).data| == |w.data| - 2 * c.run
    ensures Excise(w, c).rate == w.rate
    ensures SamplesOf(Excise(w, c))[0] == SamplesOf(w)[0]
    ensures LoudSamples(SamplesOf(Excise(w, c)), percentage) == LoudSamples(SamplesOf(w), percentage)
    ensures DropsOnlyQuiet(SamplesOf(w), SamplesOf(Excise(w, c)), percentage)
  {
    CandidateInWave(w, c, minDuration, percentage);
    ExciseSamples(w, c);
    ExciseDropsQuiet(w, c, percentage);
    DropsKeepsLoud(SamplesOf(w), SamplesOf(Excise(w, c)), percentage);
  }

  /** Removing a quiet stretch `a` to `t` takes out quiet samples only. */
  lemma DropsStretch(s: seq<int>, a: nat, t: nat, percentage: int)
    requires a <= t <= |s|
    requires forall j :: a <= j < t ==> Quiet(s[j], percentage)
    ensures DropsOnlyQuiet(s, s[..a] + s[t..], percentage)
  {
    var x, q, y := s[..a], s[a..t], s[t..];
    assert s == x + q + y;
    assert forall j :: 0 <= j < |q| ==> q[j] == s[a + j];
    DropsNothing(x, percentage);
    DropsQuietRun(q, percentage);
    DropsAppend(x, x, q, [], percentage);
    assert x + [] == x;
    DropsNothing(y, percentage);
    DropsAppend(x + q, x, y, y, percentage);
  }

  /** The samples an excision keeps: the quiet run is all that goes. */
  lemma ExciseDropsQuiet(w: Wave, c: Candidate, percentage: int)
    requires c.run <= c.total && 2 * c.total <= |w.data|
    requires forall j :: c.total - c.run <= j < c.total ==> Quiet(SamplesOf(w)[j], percentage)
    ensures DropsOnlyQuiet(SamplesOf(w), SamplesOf(Excise(w, c)), percentage)
  {
    ExciseSamples(w, c);
    DropsStretch(SamplesOf(w), c.total - c.run, c.total, percentage);
  }

  lemma SpliceWithoutFirst(s: seq<int>, a: nat, t: nat)
    requires 1 <= a <= t <= |s|
    ensures (s[..a] + s[t..])[1..] == s[1..][..a - 1] + s[1..][t - 1..]
  {
    assert (s[..a] + s[t..])[1..] == s[1..a] + s[t..];
  }

  /** The iterated samples after an excision: the run before the loud sample
      at iterated index `total - 1` is gone. */
  lemma IteratedExcise(w: Wave, c: Candidate)
    requires 1 <= c.total - c.run && c.run <= c.total && 2 * c.total <= |w.data|
    ensures Iterated(Excise(w, c)) == Iterated(w)[..c.total - c.run - 1] + Iterated(w)[c.total - 1..]
  {
    ExciseSamples(w, c);
    SpliceWithoutFirst(SamplesOf(w), c.total - c.run, c.total);
  }

  /** A one-pass trim of a scanned sequence with a fixed threshold, the
      reference for the trimming loop. `pending` holds the quiet run read
      since the last loud sample. A loud sample that ends a run longer than
      `minUnits` drops that run, any other loud sample keeps it, and a run
      the sequence ends in is kept. */
  function TrimFrom(s: seq<int>, pending: seq<int>, minUnits: real, percentage: int): seq<int>
    decreases |s|
  {
    if |s| == 0 then pending
    else if Quiet(s[0], percentage) then TrimFrom(s[1..], pending + [s[0]], minUnits, percentage)
    else (if |pending| as real > minUnits then [] else pending) + [s[0]] + TrimFrom(s[1..], [], minUnits, percentage)
  }

  /** A quiet run is simply carried along as pending. */
  lemma {:induction false} TrimQuietPrefix(q: seq<int>, z: seq<int>, pending: seq<int>, minUnits: real, percentage: int)
    requires forall j :: 0 <= j < |q| ==> Quiet(q[j], percentage)
    ensures TrimFrom(q + z, pending, minUnits, percentage) == TrimFrom(z, pending + q, minUnits, percentage)
    decreases |q|
  {
    if |q| == 0 {
      assert q + z == z && pending + q == pending;
    } else {
      assert (q + z)[0] == q[0] && (q + z)[1..] == q[1..] + z;
      TrimQuietPrefix(q[1..], z, pending + [q[0]], minUnits, percentage);
      assert pending + [q[0]] + q[1..] == pending + q;
    }
  }

  /** After a loud sample nothing is pending, so the trim splits there. */
  lemma {:induction false} TrimSplit(x: seq<int>, z: seq<int>, pending: seq<int>, minUnits: real, percentage: int)
    requires |x| > 0 && !Quiet(x[|x| - 1], percentage)
    ensures TrimFrom(x + z, pending, minUnits, percentage)
         == TrimFrom(x, pending, minUnits, percentage) + TrimFrom(z, [], minUnits, percentage)
    decreases |x|
  {
    assert (x + z)[0] == x[0] && (x + z)[1..] == x[1..] + z;
    if |x| == 1 {
      assert x[1..] + z == z;
    } else if Quiet(x[0], percentage) {
      TrimSplit(x[1..], z, pending + [x[0]], minUnits, percentage);
    } else {
      TrimSplit(x[1..], z, [], minUnits, percentage);
    }
  }

  /** Removing a quiet run longer than the threshold that a loud sample ends,
      and that starts the sequence or follows a loud sample, does not change
      the trim. */
  lemma TrimIgnoresLongRun(x: seq<int>, q: seq<int>, z: seq<int>, minUnits: real, percentage: int)
    requires minUnits >= 0.0
    requires |x| == 0 || !Quiet(x[|x| - 1], percentage)
    requires forall j :: 0 <= j < |q| ==> Quiet(q[j], percentage)
    requires |q| as real > minUnits && |z| > 0 && !Quiet(z[0], percentage)
    ensures TrimFrom(x + q + z, [], minUnits, percentage) == TrimFrom(x + z, [], minUnits, percentage)
  {
    TrimQuietPrefix(q, z, [], minUnits, percentage);
    assert [] + q == q;
    assert TrimFrom(q + z, [], minUnits, percentage) == [z[0]] + TrimFrom(z[1..], [], minUnits, percentage);
    assert TrimFrom(z, [], minUnits, percentage) == [z[0]] + TrimFrom(z[1..], [], minUnits, percentage);
    if |x| == 0 {
      assert x + q + z == q + z && x + z == z;
    } else {
      assert x + q + z == x + (q + z);
      TrimSplit(x, q + z, [], minUnits, percentage);
      TrimSplit(x, z, [], minUnits, percentage);
    }
  }

  lemma TrimQuietStep(t: seq<int>, pending: seq<int>, minUnits: real, percentage: int)
    requires |t| > 0 && Quiet(t[0], percentage)
    ensures TrimFrom(t, pending, minUnits, percentage) == TrimFrom(t[1..], pending + [t[0]], minUnits, percentage)
  {
  }

  lemma TrimLoudStep(t: seq<int>, pending: seq<int>, minUnits: real, percentage: int)
    requires |t| > 0 && !Quiet(t[0], percentage) && |pending| as real <= minUnits
    ensures TrimFrom(t, pending, minUnits, percentage) == pending + [t[0]] + TrimFrom(t[1..], [], minUnits, percentage)
  {
  }

  lemma TrimCarryQuiet(s: seq<int>, k: nat, r: nat, minUnits: real, percentage: int)
    requires r <= k < |s| && Quiet(s[k], percentage)
    requires TrimFrom(s[k + 1..], s[k - r..k + 1], minUnits, percentage) == s[k - r..]
    ensures TrimFrom(s[k..], s[k - r..k], minUnits, percentage) == s[k - r..]
  {
    var t, pending := s[k..], s[k - r..k];
    assert t[0] == s[k] && t[1..] == s[k + 1..];
    TrimQuietStep(t, pending, minUnits, percentage);
    assert pending + [s[k]] == s[k - r..k + 1];
  }

  lemma TrimCarryLoud(s: seq<int>, k: nat, r: nat, minUnits: real, percentage: int)
    requires r <= k < |s| && !Quiet(s[k], percentage) && r as real <= minUnits
    requires TrimFrom(s[k + 1..], [], minUnits, percentage) == s[k + 1..]
    ensures TrimFrom(s[k..], s[k - r..k], minUnits, percentage) == s[k - r..]
  {
    var t, pending := s[k..], s[k - r..k];
    assert t[0] == s[k] && t[1..] == s[k + 1..];
    TrimLoudStep(t, pending, minUnits, percentage);
    assert s[k - r..] == pending + [s[k]] + s[k + 1..];
  }

  /** Without a candidate the trim changes nothing: from index `k` on, with
      the quiet run before `k` pending, it gives back that run and the rest. */
  lemma {:induction false} TrimWithoutCandidate(s: seq<int>, k: nat, minUnits: real, percentage: int)
    requires k <= |s|
    requires CandidateFrom(s, k, minUnits, percentage).None?
    ensures TrimFrom(s[k..], s[k - RunBefore(s, k, percentage)..k], minUnits, percentage)
         == s[k - RunBefore(s, k, percentage)..]
    decreases |s| - k
  {
    var r := RunBefore(s, k, percentage);
    if k == |s| {
      assert s[k..] == [] && s[k - r..k] == s[k - r..];
    } else {
      TrimWithoutCandidate(s, k + 1, minUnits, percentage);
      if Quiet(s[k], percentage) {
        assert RunBefore(s, k + 1, percentage) == r + 1;
        TrimCarryQuiet(s, k, r, minUnits, percentage);
      } else {
        assert RunBefore(s, k + 1, percentage) == 0;
        assert !EndsLongRun(s, k, minUnits, percentage);
        assert s[k + 1..k + 1] == [];
        TrimCarryLoud(s, k, r, minUnits, percentage);
      }
    }
  }

  /** The trim of a sequence in which no loud sample ends a long run is the
      sequence itself. */
  lemma TrimNoCandidate(s: seq<int>, minUnits: real, percentage: int)
    requires FirstCandidate(s, minUnits, percentage).None?
    ensures TrimFrom(s, [], minUnits, percentage) == s
  {
    TrimWithoutCandidate(s, 0, minUnits, percentage);
    assert s[0..] == s && s[0..0] == [];
  }

  lemma QuietSlice(s: seq<int>, a: nat, b: nat, percentage: int)
    requires a <= b <= |s|
    requires forall j :: a <= j < b ==> Quiet(s[j], percentage)
    ensures forall j :: 0 <= j < b - a ==> Quiet(s[a..b][j], percentage)
  {
    assert forall j :: 0 <= j < b - a ==> s[a..b][j] == s[a + j];
  }

  /** The candidate's run, cut out of the scanned sequence, leaves the trim
      unchanged. */
  lemma TrimWithoutCandidateRun(it: seq<int>, c: Candidate, minUnits: real, percentage: int)
    requires minUnits >= 0.0
    requires FirstCandidate(it, minUnits, percentage) == Some(c)
    ensures c.run < c.total <= |it|
    ensures TrimFrom(it[..c.total - 1 - c.run] + it[c.total - 1..], [], minUnits, percentage)
         == TrimFrom(it, [], minUnits, percentage)
  {
    var a, b := c.total - 1 - c.run, c.total - 1;
    var x, q, z := it[..a], it[a..b], it[b..];
    assert it == x + q + z;
    QuietSlice(it, a, b, percentage);
    assert a > 0 ==> x[|x| - 1] == it[c.total - 2 - c.run];
    assert z[0] == it[b];
    TrimIgnoresLongRun(x, q, z, minUnits, percentage);
  }

  /** One excision step leaves the trim of the iterated samples unchanged. */
  lemma TrimAfterExcise(w: Wave, c: Candidate, minUnits: real, percentage: int)
    requires minUnits >= 0.0
    requires FirstCandidate(Iterated(w), minUnits, percentage) == Some(c)
    ensures 1 <= c.total - c.run && c.run <= c.total && 2 * c.total <= |w.data|
    ensures TrimFrom(Iterated(Excise(w, c)), [], minUnits, percentage) == TrimFrom(Iterated(w), [], minUnits, percentage)
  {
    CandidateInWave(w, c, minUnits, percentage);
    IteratedExcise(w, c);
    TrimWithoutCandidateRun(Iterated(w), c, minUnits, percentage);
  }

  /** `autoCut(wave, minDuration, percentage)` as written: `minDuration` is
      converted from seconds to units and the CONVERTED value is handed to the
      recursive call, which converts it again. The rate is below 2^30, where
      the byte rate does not wrap and `ExciseInSeconds` turns the cut in
      seconds back into the doubled sample counts. */
  function AutoCut(w: Wave, minDuration: real, percentage: int): (r: Wave)
    requires 0 < w.rate < 0x4000_0000 && minDuration >= 0.0
    ensures r.rate == w.rate
    ensures |r.data| <= |w.data| && |r.data| % 2 == |w.data| % 2
    ensures LoudSamples(SamplesOf(r), percentage) == LoudSamples(SamplesOf(w), percentage)
    ensures |SamplesOf(w)| > 0 ==> |SamplesOf(r)| > 0 && SamplesOf(r)[0] == SamplesOf(w)[0]
    ensures DropsOnlyQuiet(SamplesOf(w), SamplesOf(r), percentage)
    decreases |w.data|
  {
    var m := LengthFromSeconds(w.rate, minDuration);
    match FirstCandidate(Iterated(w), m, percentage)
    case None =>
      DropsNothing(SamplesOf(w), percentage);
      Copy(w)
    case Some(c) =>
      ExciseQuietRun(w, c, m, percentage);
      var r := AutoCut(Excise(w, c), m, percentage);
      DropsTransitive(SamplesOf(w), SamplesOf(Excise(w, c)), SamplesOf(r), percentage);
      r
  }

  /** `autoCut` returns its input exactly when the scan finds nothing, and
      otherwise a strictly shorter wave. */
  lemma AutoCutStops(w: Wave, minDuration: real, percentage: int)
    requires 0 < w.rate < 0x4000_0000 && minDuration >= 0.0
    ensures FirstCandidate(Iterated(w), LengthFromSeconds(w.rate, minDuration), percentage).None? ==>
      AutoCut(w, minDuration, percentage) == w
    ensures FirstCandidate(Iterated(w), LengthFromSeconds(w.rate, minDuration), percentage).Some? ==>
      |AutoCut(w, minDuration, percentage).data| < |w.data|
  {
    var m := LengthFromSeconds(w.rate, minDuration);
    match FirstCandidate(Iterated(w), m, percentage)
    case None =>
    case Some(c) =>
      ExciseQuietRun(w, c, m, percentage);
  }

  /** The trimming loop with a fixed threshold of `minUnits` units. */
  function AutoCutAt(w: Wave, minUnits: real, percentage: int): (r: Wave)
    requires minUnits >= 0.0
    ensures r.rate == w.rate
    ensures |r.data| <= |w.data| && |r.data| % 2 == |w.data| % 2
    ensures LoudSamples(SamplesOf(r), percentage) == LoudSamples(SamplesOf(w), percentage)
    ensures |SamplesOf(w)| > 0 ==> |SamplesOf(r)| > 0 && SamplesOf(r)[0] == SamplesOf(w)[0]
    ensures FirstCandidate(Iterated(w), minUnits, percentage).None? ==> r == w
    ensures FirstCandidate(Iterated(r), minUnits, percentage).None?
    ensures DropsOnlyQuiet(SamplesOf(w), SamplesOf(r), percentage)
    decreases |w.data|
  {
    match FirstCandidate(Iterated(w), minUnits, percentage)
    case None =>
      DropsNothing(SamplesOf(w), percentage);
      Copy(w)
    case Some(c) =>
      ExciseQuietRun(w, c, minUnits, percentage);
      var r := AutoCutAt(Excise(w, c), minUnits, percentage);
      DropsTransitive(SamplesOf(w), SamplesOf(Excise(w, c)), SamplesOf(r), percentage);
      r
  }

  /** The trimming loop with a fixed threshold gives exactly the one-pass
      trim: every quiet run longer than `minUnits` that a loud sample ends is
      removed, and every other quiet run, the one the wave ends in included,
      is kept whole. Sample 0, which the scan never sees, stays. */
  lemma {:induction false} AutoCutAtIsTrim(w: Wave, minUnits: real, percentage: int)
    requires minUnits >= 0.0
    ensures Iterated(AutoCutAt(w, minUnits, percentage)) == TrimFrom(Iterated(w), [], minUnits, percentage)
    decreases |w.data|
  {
    match FirstCandidate(Iterated(w), minUnits, percentage)
    case None =>
      TrimNoCandidate(Iterated(w), minUnits, percentage);
    case Some(c) =>
      TrimAfterExcise(w, c, minUnits, percentage);
      ExciseQuietRun(w, c, minUnits, percentage);
      assert AutoCutAt(w, minUnits, percentage) == AutoCutAt(Excise(w, c), minUnits, percentage);
      AutoCutAtIsTrim(Excise(w, c), minUnits, percentage);
  }

  /** `autoCut` as evidently intended: `minDuration` converted once, and the
      cut converted with an exact byte rate, so every quiet run longer than
      the minimum that a loud sample ends is removed. */
  function AutoCutIntended(w: Wave, minDuration: real, percentage: int): (r: Wave)
    requires w.rate > 0 && minDuration >= 0.0
    ensures r.rate == w.rate
    ensures LoudSamples(SamplesOf(r), percentage) == LoudSamples(SamplesOf(w), percentage)
    ensures FirstCandidate(Iterated(r), LengthFromSeconds(w.rate, minDuration), percentage).None?
    ensures |SamplesOf(w)| > 0 ==> |SamplesOf(r)| > 0 && SamplesOf(r)[0] == SamplesOf(w)[0]
    ensures DropsOnlyQuiet(SamplesOf(w), SamplesOf(r), percentage)
    ensures Iterated(r) == TrimFrom(Iterated(w), [], LengthFromSeconds(w.rate, minDuration), percentage)
  {
    AutoCutAtIsTrim(w, LengthFromSeconds(w.rate, minDuration), percentage);
    AutoCutAt(w, LengthFromSeconds(w.rate, minDuration), percentage)
  }

  /** Trimming a trimmed wave again changes nothing. */
  lemma AutoCutIntendedIdempotent(w: Wave, minDuration: real, percentage: int)
    requires w.rate > 0 && minDuration >= 0.0
    ensures AutoCutIntended(AutoCutIntended(w, minDuration, percentage), minDuration, percentage)
         == AutoCutIntended(w, minDuration, percentage)
  {
  }

  /** `s` ends in the samples `tail`. */
  predicate EndsIn(s: seq<int>, tail: seq<int>) {
    |tail| <= |s| && s[|s| - |tail|..] == tail
  }

  /** A quiet stretch the wave ends in, with no loud sample after it, comes
      through `autoCut` whole, at the end of the result. */
  lemma {:induction false} AutoCutKeepsQuietTail(w: Wave, minDuration: real, percentage: int, tail: seq<int>)
    requires 0 < w.rate < 0x4000_0000 && minDuration >= 0.0
    requires EndsIn(Iterated(w), tail)
    requires forall j :: 0 <= j < |tail| ==> Quiet(tail[j], percentage)
    ensures EndsIn(Iterated(AutoCut(w, minDuration, percentage)), tail)
    decreases |w.data|
  {
    var m := LengthFromSeconds(w.rate, minDuration);
    match FirstCandidate(Iterated(w), m, percentage)
    case None =>
      assert AutoCut(w, minDuration, percentage) == w;
    case Some(c) =>
      ExciseQuietRun(w, c, m, percentage);
      ExciseKeepsTail(w, c, percentage, tail);
      assert AutoCut(w, minDuration, percentage) == AutoCut(Excise(w, c), m, percentage);
      AutoCutKeepsQuietTail(Excise(w, c), m, percentage, tail);
  }

  /** The loud sample that ends an excised run lies before a quiet tail, so
      the excision leaves the tail in place. */
  lemma ExciseKeepsTail(w: Wave, c: Candidate, percentage: int, tail: seq<int>)
    requires 1 <= c.total - c.run && c.run <= c.total && 2 * c.total <= |w.data|
    requires c.total <= |Iterated(w)| && !Quiet(Iterated(w)[c.total - 1], percentage)
    requires EndsIn(Iterated(w), tail)
    requires forall j :: 0 <= j < |tail| ==> Quiet(tail[j], percentage)
    ensures EndsIn(Iterated(Excise(w, c)), tail)
  {
    IteratedExcise(w, c);
    SuffixAfterStretch(Iterated(w), c.total - c.run - 1, c.total - 1, percentage, tail);
  }

  lemma SuffixAfterStretch(it: seq<int>, a: nat, b: nat, percentage: int, tail: seq<int>)
    requires a <= b < |it| && !Quiet(it[b], percentage)
    requires EndsIn(it, tail)
    requires forall j :: 0 <= j < |tail| ==> Quiet(tail[j], percentage)
    ensures EndsIn(it[..a] + it[b..], tail)
  {
    var n := |it| - |tail|;
    var u := it[..a] + it[b..];
    assert |u| - |tail| == a + (n - b);
    assert u[|u| - |tail|..] == it[n..];
  }

  /** Appending quiet samples to a scan never creates a candidate there: a
      quiet run at the very end of the wave, with no loud sample after it, is
      never cut. */
  lemma {:induction false} QuietTailNeverCut(s: seq<int>, q: seq<int>, minDuration: real, percentage: int)
    requires forall j :: 0 <= j < |q| ==> Quiet(q[j], percentage)
    ensures FirstCandidate(s + q, minDuration, percentage) == FirstCandidate(s, minDuration, percentage)
  {
    CandidateFromPrefix(s, q, 0, minDuration, percentage);
  }

  lemma {:induction false} RunBeforePrefix(s: seq<int>, q: seq<int>, k: nat, percentage: int)
    requires k <= |s|
    ensures RunBefore(s + q, k, percentage) == RunBefore(s, k, percentage)
  {
    if k > 0 && Quiet(s[k - 1], percentage) {
      RunBeforePrefix(s, q, k - 1, percentage);
    }
  }

  lemma {:induction false} CandidateFromPrefix(s: seq<int>, q: seq<int>, k: nat, minDuration: real, percentage: int)
    requires k <= |s|
    requires forall j :: 0 <= j < |q| ==> Quiet(q[j], percentage)
    ensures CandidateFrom(s + q, k, minDuration, percentage) == CandidateFrom(s, k, minDuration, percentage)
    decreases |s| - k
  {
    if k == |s| {
      forall j | k <= j < |s + q|
        ensures !EndsLongRun(s + q, j, minDuration, percentage)
      {
        assert (s + q)[j] == q[j - |s|];
      }
      CandidateFromIsFirst(s + q, k, minDuration, percentage);
    } else {
      RunBeforePrefix(s, q, k, percentage);
      assert (s + q)[k] == s[k];
      CandidateFromPrefix(s, q, k + 1, minDuration, percentage);
    }
  }

  // A wave where the re-converted threshold leaves a long run in place. At
  // 8 samples per second and a minimum of 0.125 seconds the threshold is half
  // a unit; the wave's samples are 2560, 0, 2560, 0, 2560 and at one percent
  // only the zeros are quiet. Both zeros end a run of one sample, longer
  // than the threshold, yet only the first is cut: the next pass compares
  // against 2 units.

  lemma ExampleBefore(s: seq<int>)
    requires s == [0, 2560, 0, 2560]
    ensures FirstCandidate(s, 0.5, 1) == Some(Candidate(2, 1))
  {
    assert Quiet(s[0], 1) && !Quiet(s[1], 1);
    assert RunBefore(s, 0, 1) == 0;
    assert RunBefore(s, 1, 1) == 1;
    assert !EndsLongRun(s, 0, 0.5, 1);
    assert EndsLongRun(s, 1, 0.5, 1);
    assert CandidateFrom(s, 1, 0.5, 1) == Some(Candidate(2, 1));
  }

  lemma ExampleAfter(s: seq<int>)
    requires s == [2560, 0, 2560]
    ensures FirstCandidate(s, 2.0, 1).None?
    ensures EndsLongRun(s, 2, 0.5, 1)
  {
    assert !Quiet(s[0], 1) && Quiet(s[1], 1) && !Quiet(s[2], 1);
    assert RunBefore(s, 0, 1) == 0;
    assert RunBefore(s, 1, 1) == 0;
    assert RunBefore(s, 2, 1) == 1;
  }

  lemma ExampleSamples(d: seq<SByte>)
    requires d == [0, 10, 0, 0, 0, 10, 0, 0, 0, 10]
    ensures Samples(d) == [2560, 0, 2560, 0, 2560]
  {
    assert d[0] == 0 && d[1] == 10 && d[2] == 0 && d[3] == 0;
  }

  lemma ExampleExcision(S: seq<int>)
    requires S == [2560, 0, 2560, 0, 2560]
    ensures S[..1] + S[2..] == [2560, 2560, 0, 2560]
  {
  }

  /** The first pass of the example: one excision, of sample 1. */
  lemma ExampleFirstPass(d: seq<SByte>)
    requires d == [0, 10, 0, 0, 0, 10, 0, 0, 0, 10]
    ensures FirstCandidate(Iterated(Wave(8, d)), 0.5, 1) == Some(Candidate(2, 1))
    ensures SamplesOf(Excise(Wave(8, d), Candidate(2, 1))) == [2560, 2560, 0, 2560]
  {
    var w := Wave(8, d);
    ExampleSamples(d);
    var S := SamplesOf(w);
    assert Iterated(w) == [0, 2560, 0, 2560];
    ExampleBefore(Iterated(w));
    ExciseSamples(w, Candidate(2, 1));
    ExampleExcision(S);
  }

  /** The second pass of the example: at the converted threshold it finds
      nothing, although a long run remains at the first one. */
  lemma ExampleSecondPass(w: Wave)
    requires w.rate == 8 && SamplesOf(w) == [2560, 2560, 0, 2560]
    ensures AutoCut(w, 0.5, 1) == w
    ensures FirstCandidate(Iterated(w), 0.5, 1).Some?
  {
    assert Iterated(w) == [2560, 0, 2560];
    ExampleAfter(Iterated(w));
    assert LengthFromSeconds(8, 0.5) == 2.0;
    AutoCutStops(w, 0.5, 1);
  }

  /** `autoCut` as written returns a wave in which a loud sample still ends a
      quiet run longer than the minimum duration; `AutoCutIntended` never does. */
  lemma AutoCutLeavesLongRun(d: seq<SByte>, minDuration: real)
    requires d == [0, 10, 0, 0, 0, 10, 0, 0, 0, 10] && minDuration == 0.125
    ensures FirstCandidate(Iterated(AutoCut(Wave(8, d), minDuration, 1)), LengthFromSeconds(8, minDuration), 1).Some?
  {
    var w := Wave(8, d);
    assert LengthFromSeconds(8, minDuration) == 0.5;
    ExampleFirstPass(d);
    var w2 := Excise(w, Candidate(2, 1));
    ExampleSecondPass(w2);
    assert AutoCut(w, minDuration, 1) == AutoCut(w2, 0.5, 1);
  }
}

=== FILE: effects.dfy ===
/** The envelope and mixing effects of src/wave/WaveEffect.java, stated over
    the wave buffer. Windows are whole sample units. */
module WaveEffect {
  import opened Options
  import opened Pcm
  import opened Waves

  /** Java's `(int)` cast of a quotient: rounds toward zero. */
  function TruncDiv(x: int, d: int): (q: int)
    requires d > 0
    ensures Abs(q) * d <= Abs(x) < Abs(q) * d + d
    ensures x >= 0 ==> q >= 0
    ensures x <= 0 ==> q <= 0
  {
    var n := Abs(x);
    DivBounds(n, d);
    if x >= 0 then n / d else -(n / d)
  }

  lemma DivBounds(n: nat, d: int)
    requires d > 0
    ensures (n / d) * d <= n < (n / d) * d + d
  {
    assert n == (n / d) * d + n % d;
  }

  /** A sample scaled by a percentage, truncated toward zero. */
  function Scale(a: int, percentage: int): int {
    TruncDiv(a * percentage, 100)
  }

  /** Scaling by at most 100 percent never grows a sample, keeps its sign and
      so never reaches the saturation. */
  lemma ScaleAttenuates(a: int, percentage: int)
    requires 0 <= percentage <= 100
    ensures Abs(Scale(a, percentage)) <= Abs(a)
    ensures a >= 0 ==> Scale(a, percentage) >= 0
    ensures a <= 0 ==> Scale(a, percentage) <= 0
  {
    var x := a * percentage;
    AbsMul(a, percentage);
    var q := Scale(a, percentage);
    assert Abs(q) * 100 <= Abs(x);
    MulLe(percentage, 100, Abs(a));
    CancelFactor(Abs(q), Abs(a), 100);
  }

  lemma AbsMul(a: int, p: nat)
    ensures Abs(a * p) == Abs(a) * p
    ensures a >= 0 ==> a * p >= 0
    ensures a <= 0 ==> a * p <= 0
  {
    if a < 0 {
      assert a * p == -((-a) * p);
    }
  }

  lemma CancelFactor(x: int, y: int, d: int)
    requires d > 0 && x * d <= y * d
    ensures x <= y
  {
    if x > y {
      StepAfter(y, d);
      MulLe(y + 1, x, d);
    }
  }

  lemma ScaleInRange(a: int, percentage: int)
    requires -32768 <= a <= 32767 && 0 <= percentage <= 100
    ensures Clip(Scale(a, percentage)) == Scale(a, percentage)
  {
    ScaleAttenuates(a, percentage);
  }

  /** `cutWave`: delegates to the buffer's cut. */
  function CutWave(w: Wave, start: nat, duration: nat): (r: Wave)
    requires duration == 0 || start + duration <= |w.data|
    ensures r.rate == w.rate
    ensures start + duration <= |w.data| ==> r.data == w.data[..start] + w.data[start + duration..]
  {
    Cut(w, start, duration)
  }

  /** `addOffset`: every sample shifted by a Java `int`, with Java's wrap-around
      on the sum and the buffer's saturation on writing. Where the whole-wave
      window covers no sample (rate 0, or a wrapped byte rate), none moves. */
  function AddOffset(w: Wave, offset: Int32): (r: Wave)
    ensures r.rate == w.rate && |r.data| == |w.data|
    ensures MapsWhole(w.rate) ==> forall k :: 0 <= k < |SamplesOf(w)| ==>
      SamplesOf(r)[k] == Clip(Wrap32(SamplesOf(w)[k] + offset))
    ensures MapsWhole(w.rate) ==> forall k :: 0 <= k < |SamplesOf(w)| ==>
      (-32768 <= SamplesOf(w)[k] + offset <= 32767 <==> SamplesOf(r)[k] == SamplesOf(w)[k] + offset)
    ensures !MapsWhole(w.rate) ==> SamplesOf(r) == SamplesOf(w)
  {
    if MapsWhole(w.rate) then
      OffsetSamples(w, offset);
      ModifyAll(w, Shift(offset))
    else ModifyAll(w, Shift(offset))
  }

  /** The mapper of `addOffset`: Java `int` addition. */
  function Shift(offset: Int32): int -> int {
    a => Wrap32(a + offset)
  }

  lemma OffsetSamples(w: Wave, offset: Int32)
    requires MapsWhole(w.rate)
    ensures forall k :: 0 <= k < |SamplesOf(w)| ==>
      SamplesOf(ModifyAll(w, Shift(offset)))[k] == Clip(Wrap32(SamplesOf(w)[k] + offset))
    ensures forall k :: 0 <= k < |SamplesOf(w)| ==>
      (-32768 <= SamplesOf(w)[k] + offset <= 32767 <==> SamplesOf(ModifyAll(w, Shift(offset)))[k] == SamplesOf(w)[k] + offset)
  {
    var s, t := SamplesOf(w), SamplesOf(ModifyAll(w, Shift(offset)));
    forall k | 0 <= k < |s|
      ensures t[k] == Clip(Wrap32(s[k] + offset))
      ensures -32768 <= s[k] + offset <= 32767 <==> t[k] == s[k] + offset
    {
      var v := s[k];
      assert t[k] == Clip(Shift(offset)(v));
      OffsetSample(v, offset);
    }
  }

  lemma OffsetSample(a: int, offset: Int32)
    requires -32768 <= a <= 32767
    ensures -32768 <= a + offset <= 32767 <==> Clip(Shift(offset)(a)) == a + offset
  {
    assert Shift(offset)(a) == Wrap32(a + offset);
  }

  /** The sum wraps before it is written: the top sample shifted by the top
      `int` becomes a large negative `int`, which saturates downward. Where
      the whole-wave window covers no sample, the sample stays. */
  lemma AddOffsetWrapsAround(w: Wave)
    requires |SamplesOf(w)| > 0 && SamplesOf(w)[0] == 32767
    ensures SamplesOf(AddOffset(w, IntMax))[0] == if MapsWhole(w.rate) then -32640 else 32767
  {
    if MapsWhole(w.rate) {
      var v := Wrap32(32767 + IntMax);
      assert v == 32767 + IntMax - 0x1_0000_0000;
      assert Clip(v) == -32640;
    }
  }

  /** A zero offset leaves every sample as it was. */
  lemma AddOffsetZero(w: Wave)
    ensures SamplesOf(AddOffset(w, 0)) == SamplesOf(w)
  {
  }

  /** Shifting up and back down restores the samples when the first shift did
      not saturate. */
  lemma AddOffsetInverse(w: Wave, offset: Int32)
    requires offset > IntMin
    requires forall k :: 0 <= k < |SamplesOf(w)| ==> -32768 <= SamplesOf(w)[k] + offset <= 32767
    ensures SamplesOf(AddOffset(AddOffset(w, offset), -offset)) == SamplesOf(w)
  {
    var s := SamplesOf(w);
    var once := AddOffset(w, offset);
    var t := SamplesOf(once);
    var twice := SamplesOf(AddOffset(once, -offset));
    assert |t| == |s| && |twice| == |s|;
    if MapsWhole(w.rate) {
      forall k | 0 <= k < |s|
        ensures twice[k] == s[k]
      {
        assert t[k] == s[k] + offset;
        assert -32768 <= t[k] + -offset <= 32767;
      }
    }
  }

  /** `amplify(percentage)` on the whole wave. Where the whole-wave window
      covers no sample (rate 0, or a wrapped byte rate), none changes. */
  function Amplify(w: Wave, percentage: Int32): (r: Wave)
    ensures r.rate == w.rate && |r.data| == |w.data|
    ensures MapsWhole(w.rate) ==> forall k :: 0 <= k < |SamplesOf(w)| ==>
      SamplesOf(r)[k] == Clip(Scale(SamplesOf(w)[k], percentage))
    ensures !MapsWhole(w.rate) ==> SamplesOf(r) == SamplesOf(w)
    ensures 0 <= percentage <= 100 ==> forall k :: 0 <= k < |SamplesOf(w)| ==>
      Abs(SamplesOf(r)[k]) <= Abs(SamplesOf(w)[k])
  {
    if 0 <= percentage <= 100 && MapsWhole(w.rate) then
      ScalesAttenuate(SamplesOf(w), percentage);
      ModifyAll(w, a => Scale(a, percentage))
    else ModifyAll(w, a => Scale(a, percentage))
  }

  lemma ScalesAttenuate(s: seq<int>, percentage: int)
    requires forall k :: 0 <= k < |s| ==> -32768 <= s[k] <= 32767
    requires 0 <= percentage <= 100
    ensures forall k :: 0 <= k < |s| ==> Abs(Clip(Scale(s[k], percentage))) <= Abs(s[k])
  {
    forall k | 0 <= k < |s|
      ensures Abs(Clip(Scale(s[k], percentage))) <= Abs(s[k])
    {
      ScaleInRange(s[k], percentage);
      ScaleAttenuates(s[k], percentage);
    }
  }

  /** Amplifying by 100 percent keeps every sample and, for a buffer of whole
      pairs, every byte. */
  lemma AmplifyHundredIsIdentity(w: Wave)
    ensures SamplesOf(Amplify(w, 100)) == SamplesOf(w)
    ensures |w.data| % 2 == 0 ==> Amplify(w, 100).data == w.data
  {
    var f := a => Scale(a, 100);
    ModifyAllIdentityBytes(w, f);
    assert w.data[..|w.data| / 2 * 2] + [] == w.data[..|w.data| / 2 * 2];
  }

  /** Amplifying by 0 percent silences every sample, except where the
      whole-wave window covers no sample and nothing changes. */
  lemma AmplifyZeroSilences(w: Wave)
    ensures MapsWhole(w.rate) ==> forall k :: 0 <= k < |SamplesOf(Amplify(w, 0))| ==> SamplesOf(Amplify(w, 0))[k] == 0
    ensures !MapsWhole(w.rate) ==> SamplesOf(Amplify(w, 0)) == SamplesOf(w)
  {
  }

  /** `amplify(percentage, startTime, duration)`: only the window changes. */
  function AmplifyWindow(w: Wave, percentage: Int32, start: nat, duration: nat): (r: Wave)
    ensures r.rate == w.rate && |r.data| == |w.data|
    ensures forall k :: 0 <= k < |SamplesOf(w)| && !(start <= k < start + duration) ==>
      SamplesOf(r)[k] == SamplesOf(w)[k]
    ensures forall k :: start <= k < start + duration && k < |SamplesOf(w)| ==>
      SamplesOf(r)[k] == Clip(Scale(SamplesOf(w)[k], percentage))
    ensures 0 <= percentage <= 100 ==> forall k :: start <= k < start + duration && k < |SamplesOf(w)| ==>
      SamplesOf(r)[k] == Scale(SamplesOf(w)[k], percentage)
  {
    if 0 <= percentage <= 100 then
      ScalesInRange(SamplesOf(w), percentage);
      Modify(w, start, duration, a => Scale(a, percentage))
    else Modify(w, start, duration, a => Scale(a, percentage))
  }

  lemma ScalesInRange(s: seq<int>, percentage: int)
    requires forall k :: 0 <= k < |s| ==> -32768 <= s[k] <= 32767
    requires 0 <= percentage <= 100
    ensures forall k :: 0 <= k < |s| ==> Clip(Scale(s[k], percentage)) == Scale(s[k], percentage)
  {
    forall k | 0 <= k < |s|
      ensures Clip(Scale(s[k], percentage)) == Scale(s[k], percentage)
    {
      ScaleInRange(s[k], percentage);
    }
  }

  lemma MulLe(a: int, b: int, c: nat)
    requires a <= b
    ensures a * c <= b * c
  {
    assert (b - a) * c >= 0;
    assert b * c - a * c == (b - a) * c;
  }

  lemma StepAfter(i: int, step: int)
    ensures (i + 1) * step == i * step + step
  {
  }

  /** A position that is at least `q` steps in and inside window `i` has `q <= i`. */
  lemma WindowBelow(q: int, i: int, step: int, k: int)
    requires step > 0 && q * step <= k < i * step + step
    ensures q <= i
  {
    if q >= i + 1 {
      StepAfter(i, step);
      MulLe(i + 1, q, step);
      assert false;
    }
  }

  /** A position inside the window `[i * step, (i + 1) * step)` lies in window
      number `i` of the staircase. */
  lemma WindowIndex(k: int, i: nat, step: int)
    requires step > 0 && i * step <= k < i * step + step
    ensures k / step == i
  {
    var q := k / step;
    assert q * step <= k < q * step + step;
    WindowBelow(q, i, step, k);
    WindowBelow(i, q, step, k);
  }

  /** The percentage the fade-in staircase applies to sample `k`: window 0 is
      silenced, window `i` (1 to 99) is scaled by `i` percent, and everything
      from window 100 on keeps its value. */
  function FadeInLevel(k: nat, step: nat): nat {
    if step == 0 || k >= 100 * step then 100 else k / step
  }

  /** Samples `t` agree with the fade-in staircase over `s` below `bound` and
      with `s` itself from `bound` on. */
  ghost predicate FadedInBelow(t: seq<int>, s: seq<int>, bound: nat, step: nat) {
    |t| == |s| &&
    forall k :: 0 <= k < |s| ==> t[k] == (if k < bound then Scale(s[k], FadeInLevel(k, step)) else s[k])
  }

  /** Amplifying window `i` by `i` percent extends the staircase by one window. */
  lemma FadeInWindow(s: seq<int>, prev: Wave, i: nat, start: nat, step: nat)
    requires 1 <= i <= 99 && start == i * step
    requires forall k :: 0 <= k < |s| ==> -32768 <= s[k] <= 32767
    requires FadedInBelow(SamplesOf(prev), s, start, step)
    ensures FadedInBelow(SamplesOf(AmplifyWindow(prev, i, start, step)), s, start + step, step)
  {
    var r := AmplifyWindow(prev, i, start, step);
    forall k | 0 <= k < |s|
      ensures SamplesOf(r)[k] == (if k < start + step then Scale(s[k], FadeInLevel(k, step)) else s[k])
    {
      if start <= k < start + step {
        FadeInLevelInWindow(k, i, step);
      }
    }
  }

  lemma FadeInLevelInWindow(k: nat, i: nat, step: nat)
    requires 1 <= i <= 99 && i * step <= k < i * step + step
    ensures FadeInLevel(k, step) == i
  {
    StepAfter(i, step);
    MulLe(i + 1, 100, step);
    WindowIndex(k, i, step);
  }

  /** Silencing window 0 starts the staircase. */
  lemma FadeInFirstWindow(w: Wave, step: nat)
    ensures FadedInBelow(SamplesOf(Modify(w, 0, step, a => 0)), SamplesOf(w), step, step)
  {
    var s, t := SamplesOf(w), SamplesOf(Modify(w, 0, step, a => 0));
    forall k | 0 <= k < |s|
      ensures t[k] == (if k < step then Scale(s[k], FadeInLevel(k, step)) else s[k])
    {
      if k < step {
        WindowIndex(k, 0, step);
        assert FadeInLevel(k, step) == 0;
        ScaleZero(s[k]);
      }
    }
  }

  lemma ScaleZero(a: int)
    ensures Scale(a, 0) == 0
  {
    assert a * 0 == 0;
  }

  /** Once all 100 windows are done, the staircase covers every sample. */
  lemma FadeInComplete(t: seq<int>, s: seq<int>, step: nat)
    requires FadedInBelow(t, s, 100 * step, step)
    ensures forall k :: 0 <= k < |s| ==> t[k] == Scale(s[k], FadeInLevel(k, step))
  {
  }

  /** `fadeIn(toTime)`: window 0 zeroed, then windows 1 to 99 each amplified,
      one after the other, on the result of the previous step. */
  method FadeIn(w: Wave, to: nat) returns (r: Wave)
    ensures r.rate == w.rate && |r.data| == |w.data|
    ensures forall k :: 0 <= k < |SamplesOf(w)| ==>
      SamplesOf(r)[k] == Scale(SamplesOf(w)[k], FadeInLevel(k, to / 100))
  {
    var s := SamplesOf(w);
    var step := to / 100;
    var start := 0;
    r := Modify(w, start, step, a => 0);
    FadeInFirstWindow(w, step);
    start := start + step;
    for i := 1 to 100
      invariant start == i * step
      invariant r.rate == w.rate && |r.data| == |w.data|
      invariant FadedInBelow(SamplesOf(r), s, start, step)
    {
      FadeInWindow(s, r, i, start, step);
      r := AmplifyWindow(r, i, start, step);
      StepAfter(i, step);
      start := start + step;
    }
    FadeInComplete(SamplesOf(r), s, step);
  }

  /** The width of one fade-out window: a hundredth of what lies after `from`;
      a start past the end leaves no window. */
  function FadeOutStep(n: nat, from: nat): nat {
    if from <= n then (n - from) / 100 else 0
  }

  /** The percentage a fade-out staircase whose first window starts at `first`
      applies to sample `k`: samples before `first` keep their value, window
      `j` (0 to 99) is scaled by `99 - j` percent, and everything after the
      hundredth window keeps its value. */
  function FadeOutLevel(k: nat, first: nat, step: nat): nat {
    if step == 0 || k < first then 100
    else
      var j := (k - first) / step;
      if j < 100 then 99 - j else 100
  }

  /** Samples `t` agree with the fade-out staircase over `s` below `bound` and
      with `s` itself from `bound` on. */
  ghost predicate FadedOutBelow(t: seq<int>, s: seq<int>, bound: nat, first: nat, step: nat) {
    |t| == |s| &&
    forall k :: 0 <= k < |s| ==> t[k] == (if k < bound then Scale(s[k], FadeOutLevel(k, first, step)) else s[k])
  }

  lemma FadeOutLevelInWindow(k: nat, first: nat, step: nat, i: nat)
    requires i <= 99 && first + (99 - i) * step <= k < first + (99 - i) * step + step
    ensures FadeOutLevel(k, first, step) == i
  {
    WindowIndex(k - first, 99 - i, step);
  }

  /** Amplifying the window `99 - i` steps after `first` by `i` percent extends
      the staircase by one window. */
  lemma FadeOutWindow(s: seq<int>, prev: Wave, i: nat, start: nat, first: nat, step: nat)
    requires i <= 99 && start == first + (99 - i) * step
    requires forall k :: 0 <= k < |s| ==> -32768 <= s[k] <= 32767
    requires FadedOutBelow(SamplesOf(prev), s, start, first, step)
    ensures FadedOutBelow(SamplesOf(AmplifyWindow(prev, i, start, step)), s, start + step, first, step)
  {
    var r := AmplifyWindow(prev, i, start, step);
    forall k | 0 <= k < |s|
      ensures SamplesOf(r)[k] == (if k < start + step then Scale(s[k], FadeOutLevel(k, first, step)) else s[k])
    {
      if start <= k < start + step {
        assert SamplesOf(r)[k] == Scale(SamplesOf(prev)[k], i);
        FadeOutLevelInWindow(k, first, step, i);
      }
    }
  }

  /** After the hundredth window nothing changes. */
  lemma FadeOutBounds(t: seq<int>, s: seq<int>, first: nat, step: nat)
    requires FadedOutBelow(t, s, first + 100 * step, first, step)
    ensures forall k :: 0 <= k < |s| ==> t[k] == Scale(s[k], FadeOutLevel(k, first, step))
  {
    forall k | 0 <= k < |s|
      ensures t[k] == Scale(s[k], FadeOutLevel(k, first, step))
    {
      if k >= first + 100 * step && step > 0 {
        var q := (k - first) / step;
        assert q * step <= k - first < q * step + step;
        WindowBelow(100, q, step, k - first);
      }
    }
  }

  /** The staircase loop shared by both fade-outs: windows of `step` samples
      from `first` on, amplified by 99, 98, ..., 0 percent, each on the result
      of the previous step. */
  method FadeOutFrom(w: Wave, first: nat, step: nat) returns (r: Wave)
    ensures r.rate == w.rate && |r.data| == |w.data|
    ensures forall k :: 0 <= k < |SamplesOf(w)| ==>
      SamplesOf(r)[k] == Scale(SamplesOf(w)[k], FadeOutLevel(k, first, step))
  {
    var s := SamplesOf(w);
    var start := first;
    r := Copy(w);
    var i: int := 99;
    ghost var done: nat := 0;
    while i >= 0
      invariant i == 99 - done && done <= 100
      invariant start == first + done * step
      invariant r.rate == w.rate && |r.data| == |w.data|
      invariant FadedOutBelow(SamplesOf(r), s, start, first, step)
    {
      FadeOutWindow(s, r, i, start, first, step);
      r := AmplifyWindow(r, i, start, step);
      StepAfter(done, step);
      start := start + step;
      i := i - 1;
      done := done + 1;
    }
    FadeOutBounds(SamplesOf(r), s, first, step);
  }

  /** The percentage `fadeOut(from)` applies to sample `k` of an `n`-sample
      wave: its staircase starts one step AFTER `from`. */
  function FadeOutGain(k: nat, n: nat, from: nat): nat {
    var step := FadeOutStep(n, from);
    FadeOutLevel(k, from + step, step)
  }

  /** `fadeOut(fromTime)`. Where `MapsWhole` fails, every window covers no
      sample, which the empty window stands for. At rate 0 the wave's length
      in seconds is infinite, so the step is too, and every window converts
      to NaN units. Once the byte rate wraps, the length in seconds has the
      opposite sign to the rate, and so has the step; every window then
      converts to a negative number of units. */
  method FadeOut(w: Wave, from: nat) returns (r: Wave)
    ensures r.rate == w.rate && |r.data| == |w.data|
    ensures MapsWhole(w.rate) ==> forall k :: 0 <= k < |SamplesOf(w)| ==>
      SamplesOf(r)[k] == Scale(SamplesOf(w)[k], FadeOutGain(k, |SamplesOf(w)|, from))
    ensures !MapsWhole(w.rate) ==> SamplesOf(r) == SamplesOf(w)
  {
    if !MapsWhole(w.rate) {
      r := AmplifyWindow(w, 0, 0, 0);
      return;
    }
    var step := FadeOutStep(|w.data| / 2, from);
    var start := from;
    start := start + step;
    r := FadeOutFrom(w, start, step);
  }

  /** When the fade length is a whole number of windows, the 0 percent window
      of `fadeOut` lies wholly past the end: every sample from `from` on keeps
      at least 1 percent, and the last sample is scaled by exactly 1 percent. */
  lemma FadeOutNeverSilent(n: nat, from: nat)
    requires from < n && (n - from) % 100 == 0
    ensures forall k :: from <= k < n ==> FadeOutGain(k, n, from) >= 1
    ensures FadeOutGain(n - 1, n, from) == 1
  {
    var step := FadeOutStep(n, from);
    assert n == from + 100 * step;
    forall k | from <= k < n && k >= from + step
      ensures FadeOutGain(k, n, from) >= 1
    {
      var q := (k - from - step) / step;
      assert q * step <= k - from - step;
      WindowBelow(q, 98, step, k - from - step);
    }
    FadeOutLevelInWindow(n - 1, from + step, step, 1);
  }

  /** The fade-out as evidently intended: the staircase starts AT `from`, so
      its 0 percent window is the last step of the wave. */
  method FadeOutIntended(w: Wave, from: nat) returns (r: Wave)
    ensures r.rate == w.rate && |r.data| == |w.data|
    ensures forall k :: 0 <= k < |SamplesOf(w)| ==>
      SamplesOf(r)[k] == Scale(SamplesOf(w)[k], FadeOutLevel(k, from, FadeOutStep(|SamplesOf(w)|, from)))
  {
    r := FadeOutFrom(w, from, FadeOutStep(|w.data| / 2, from));
  }

  /** With the staircase starting at `from` and a whole number of windows, the
      gain never rises from `from` to the end and the last step is silent. */
  lemma FadeOutIntendedEndsSilent(n: nat, from: nat)
    requires from < n && (n - from) % 100 == 0
    ensures var step := FadeOutStep(n, from);
      forall k :: n - step <= k < n ==> FadeOutLevel(k, from, step) == 0
    ensures var step := FadeOutStep(n, from);
      forall k1, k2 :: from <= k1 <= k2 < n ==> FadeOutLevel(k2, from, step) <= FadeOutLevel(k1, from, step)
  {
    var step := FadeOutStep(n, from);
    assert n == from + 100 * step;
    forall k | n - step <= k < n
      ensures FadeOutLevel(k, from, step) == 0
    {
      FadeOutLevelInWindow(k, from, step, 0);
    }
    forall k1, k2 | from <= k1 <= k2 < n
      ensures FadeOutLevel(k2, from, step) <= FadeOutLevel(k1, from, step)
    {
      var q2 := (k2 - from) / step;
      assert q2 * step <= k2 - from;
      WindowBelow(q2, 99, step, k2 - from);
      DivMonotone(k1 - from, k2 - from, step);
    }
  }

  lemma DivMonotone(a: nat, b: nat, d: nat)
    requires a <= b && d > 0
    ensures a / d <= b / d
  {
    var qa := a / d;
    assert qa * d <= a <= b < (b / d) * d + d;
    WindowBelow(qa, b / d, d, b);
  }

  /** The wave `add` and `subtract` combine into: the strictly longer one,
      and on equal lengths the second argument. */
  function Base(w1: Wave, w2: Wave): Wave {
    if |w1.data| > |w2.data| then w1 else w2
  }

  function Other(w1: Wave, w2: Wave): Wave {
    if |w1.data| > |w2.data| then w2 else w1
  }

  /** `add(wave1, wave2)` / `subtract(wave1, wave2)`: the other wave is combined
      into the base byte by byte; the base never throws since it is never the
      shorter one. */
  function Combine(w1: Wave, w2: Wave, op: MixOp): (r: Wave)
    ensures |r.data| == if |w1.data| > |w2.data| then |w1.data| else |w2.data|
    ensures r.rate == Base(w1, w2).rate
    ensures forall i :: 0 <= i < |r.data| ==>
      r.data[i] == if i < |Other(w1, w2).data|
                   then SatByte(Apply(op, Base(w1, w2).data[i], Other(w1, w2).data[i]))
                   else Base(w1, w2).data[i]
  {
    Mix(Base(w1, w2), Other(w1, w2), op).value
  }

  /** `add(wave1, wave2)`. */
  function Add(w1: Wave, w2: Wave): Wave {
    Combine(w1, w2, Plus)
  }

  /** `subtract(wave1, wave2)`. */
  function Subtract(w1: Wave, w2: Wave): Wave {
    Combine(w1, w2, Minus)
  }

  /** Adding is symmetric in its bytes; only the rate follows the base. */
  lemma AddCommutesOnBytes(w1: Wave, w2: Wave)
    ensures Add(w1, w2).data == Add(w2, w1).data
  {
    var a, b := Add(w1, w2).data, Add(w2, w1).data;
    assert |a| == |b|;
    forall i | 0 <= i < |a|
      ensures a[i] == b[i]
    {
    }
  }

  /** With unequal lengths the argument order of `subtract` does not matter:
      the shorter wave is always taken from the longer one. */
  lemma SubtractLongerMinusShorter(w1: Wave, w2: Wave)
    requires |w1.data| != |w2.data|
    ensures Subtract(w1, w2) == Subtract(w2, w1)
  {
  }

  /** With equal lengths `subtract(wave1, wave2)` is `wave2 - wave1`. */
  lemma SubtractEqualLengths(w1: Wave, w2: Wave)
    requires |w1.data| == |w2.data|
    ensures Subtract(w1, w2).rate == w2.rate
    ensures forall i :: 0 <= i < |w1.data| ==>
      Subtract(w1, w2).data[i] == SatByte(w2.data[i] as int - w1.data[i] as int)
  {
  }

  /** Mixing in a wave of zero bytes leaves the other wave's bytes as they were. */
  lemma CombineSilence(w: Wave, z: Wave, op: MixOp)
    requires forall i :: 0 <= i < |z.data| ==> z.data[i] == 0
    requires |z.data| < |w.data|
    ensures Combine(w, z, op).data == w.data
  {
  }

  /** Mixing works on raw bytes, not on samples: the carry out of a low byte is
      lost, so the samples 255 and 1 add up to the sample 0 rather than 256. */
  lemma AddDropsCarry()
    ensures var a := Wave(8000, [-1, 0]);
      var b := Wave(8000, [1, 0]);
      SamplesOf(a) == [255] && SamplesOf(b) == [1] && SamplesOf(Add(a, b)) == [0]
  {
    var a, b := Wave(8000, [-1, 0]), Wave(8000, [1, 0]);
    assert Add(a, b).data == [0, 0];
  }
}

=== FILE: options.dfy ===
/** An optional value, for results the source leaves undefined or guards with
    an exception. */
module Options {

  datatype Option<T> = None | Some(value: T)
}

=== FILE: pcm.dfy ===
/** Java integer widths and the 16-bit little-endian sample codec that the
    wave buffer reads and writes (cut&play/src/wave/Wave.java). */
module Pcm {

  /** A Java `byte`. */
  type SByte = x: int | -128 <= x < 128

  const IntMin: int := -0x8000_0000
  const IntMax: int := 0x7FFF_FFFF

  /** A Java `int`. */
  type Int32 = x: int | IntMin <= x <= IntMax

  /** Java `int` arithmetic: the result wraps around modulo 2^32. */
  function Wrap32(x: int): (r: Int32)
    ensures IntMin <= x <= IntMax ==> r == x
    ensures (x - r) % 0x1_0000_0000 == 0
  {
    var u := x % 0x1_0000_0000;
    if u > IntMax then u - 0x1_0000_0000 else u
  }

  /** Java's `(byte)` cast of a value in 0..255. */
  function ToSByte(u: int): (b: SByte)
    requires 0 <= u < 256
    ensures b % 256 == u
  {
    if u >= 128 then u - 256 else u
  }

  function Abs(x: int): nat {
    if x < 0 then -x else x
  }

  /** The sample a byte pair holds: `(hi << 8) | (255 & lo)` with `hi`
      sign-extended. */
  function Decode(lo: SByte, hi: SByte): (v: int)
    ensures -32768 <= v <= 32767
    ensures v % 256 == lo % 256
  {
    hi * 256 + lo % 256
  }

  datatype BytePair = BytePair(lo: SByte, hi: SByte)

  /** The sample value read back after a mapped value was written with the
      byte-wise saturation: an overflow is stored as the pair (127, 127) and an
      underflow as (-128, -128), so neither lands on the 16-bit extremes. */
  function Clip(r: int): (v: int)
    ensures -32768 <= v <= 32767
    ensures -32768 <= r <= 32767 <==> v == r
    ensures r > 32767 ==> v == 32639
    ensures r < -32768 ==> v == -32640
  {
    if r > 32767 then 32639 else if r < -32768 then -32640 else r
  }

  /** The byte pair written for a mapped sample value. */
  function EncodeClip(r: int): (p: BytePair)
    ensures Decode(p.lo, p.hi) == Clip(r)
  {
    if r > 32767 then BytePair(127, 127)
    else if r < -32768 then BytePair(-128, -128)
    else
      var hi := ToSByte((r / 256) % 256);
      assert hi == r / 256;
      BytePair(ToSByte(r % 256), hi)
  }

  /** Writing back a sample that was just read reproduces the original bytes. */
  lemma EncodeDecode(lo: SByte, hi: SByte)
    ensures EncodeClip(Decode(lo, hi)) == BytePair(lo, hi)
  {
    var v := Decode(lo, hi);
    assert v / 256 == hi;
    assert v % 256 == lo % 256;
  }

  /** The decoded samples of a byte buffer: one per complete byte pair. */
  function Samples(d: seq<SByte>): (s: seq<int>)
    ensures |s| == |d| / 2
    ensures forall k :: 0 <= k < |s| ==> -32768 <= s[k] <= 32767
  {
    seq(|d| / 2, k requires 0 <= k < |d| / 2 => Decode(d[2 * k], d[2 * k + 1]))
  }

  /** Sample `k` is decoded from bytes `2k` and `2k + 1`. */
  lemma SampleAt(d: seq<SByte>, k: nat)
    requires k < |d| / 2
    ensures Samples(d)[k] == Decode(d[2 * k], d[2 * k + 1])
  {
  }

  /** Splitting a buffer at an even offset splits its samples at half of it. */
  lemma SamplesAppend(a: seq<SByte>, b: seq<SByte>)
    requires |a| % 2 == 0
    ensures Samples(a + b) == Samples(a) + Samples(b)
  {
    var ab := a + b;
    var l, r := Samples(ab), Samples(a) + Samples(b);
    assert |l| == |r|;
    forall k | 0 <= k < |l|
      ensures l[k] == r[k]
    {
      if k < |a| / 2 {
        assert ab[2 * k] == a[2 * k] && ab[2 * k + 1] == a[2 * k + 1];
      } else {
        var j := k - |a| / 2;
        assert 2 * k == |a| + 2 * j;
        assert ab[2 * k] == b[2 * j] && ab[2 * k + 1] == b[2 * j + 1];
      }
    }
  }

  /** Dropping bytes `[2a, 2(a + b))` drops samples `[a, a + b)`. */
  lemma SplicedSamples(d: seq<SByte>, a: nat, b: nat)
    requires 2 * (a + b) <= |d|
    ensures Samples(d[..2 * a] + d[2 * (a + b)..]) == Samples(d)[..a] + Samples(d)[a + b..]
  {
    var x, y := d[..2 * a], d[2 * (a + b)..];
    SamplesAppend(x, y);
    SamplesTake(d, a);
    SamplesDrop(d, a + b);
  }

  /** The samples of a byte slice starting at an even offset. */
  lemma SamplesDrop(d: seq<SByte>, a: nat)
    requires 2 * a <= |d|
    ensures Samples(d[2 * a..]) == Samples(d)[a..]
  {
    assert d == d[..2 * a] + d[2 * a..];
    SamplesAppend(d[..2 * a], d[2 * a..]);
  }

  lemma SamplesTake(d: seq<SByte>, a: nat)
    requires 2 * a <= |d|
    ensures Samples(d[..2 * a]) == Samples(d)[..a]
  {
    assert d == d[..2 * a] + d[2 * a..];
    SamplesAppend(d[..2 * a], d[2 * a..]);
  }
}

=== FILE: track.dfy ===
/** The audio record of src/mod/Track.java: a global id counter, three
    constructors, the length in seconds and the list label. */
module Tracks {
  import opened Options
  import opened Pcm

  /** The parts of an audio format the record reads. */
  datatype Format = Format(sampleRate: real, sampleSizeInBits: Int32, channels: Int32)

  /** An immutable track. `length` is the value computed when the track was
      built; the label shows it. */
  datatype Track = Track(id: Int32, name: string, data: seq<SByte>, format: Format,
                         modified: bool, length: Option<real>)

  /** The static counter that hands out ids. */
  datatype Counter = Counter(next: Int32)

  /** The first track built gets id 1. */
  const Initial: Counter := Counter(1)

  /** Java's `(int)` cast of a finite floating-point value: truncation toward
      zero, saturated at the `int` range. */
  function IntOfFloat(x: real): (r: Int32)
    ensures 0.0 <= x ==> r as real <= x
    ensures x <= 0.0 ==> x <= r as real
    ensures IntMin as real <= x <= IntMax as real ==> -1.0 < x - r as real < 1.0
    ensures x >= IntMax as real ==> r == IntMax
    ensures x <= IntMin as real ==> r == IntMin
  {
    if x >= IntMax as real then IntMax
    else if x <= IntMin as real then IntMin
    else if x >= 0.0 then x.Floor
    else -((-x).Floor)
  }

  /** Bytes per second: the three fields multiplied in Java `int` arithmetic,
      then divided by 8 in floating point. */
  function BytesPerSecond(f: Format): real {
    Wrap32(Wrap32(IntOfFloat(f.sampleRate) * f.sampleSizeInBits) * f.channels) as real / 8.0
  }

  /** `updateLength`: the data length divided by the byte rate. A zero byte
      rate divides by zero, which Java answers with infinity or NaN; here it
      has no length. */
  function UpdateLength(data: seq<SByte>, f: Format): (r: Option<real>)
    ensures r.None? <==> BytesPerSecond(f) == 0.0
    ensures r.Some? ==> r.value * BytesPerSecond(f) == |data| as real
  {
    var bps := BytesPerSecond(f);
    if bps == 0.0 then None else Some(|data| as real / bps)
  }

  /** `getLength`: recomputed from the data and format every call. */
  function GetLength(t: Track): Option<real> {
    UpdateLength(t.data, t.format)
  }

  /** A track as its constructors leave it: the stored length agrees with
      the data and the format. */
  predicate Consistent(t: Track) {
    t.length == UpdateLength(t.data, t.format)
  }

  /** The main constructor: takes the counter's value as the id and bumps the
      counter, with Java's wrap-around. */
  function NewTrack(c: Counter, name: string, data: seq<SByte>, format: Format, modified: bool): (r: (Track, Counter))
    ensures r.0.id == c.next
    ensures r.1.next == Wrap32(c.next + 1)
    ensures c.next < IntMax ==> r.1.next == c.next + 1
    ensures r.0.name == name && r.0.data == data && r.0.format == format && r.0.modified == modified
    ensures Consistent(r.0)
  {
    (Track(c.next, name, data, format, modified, UpdateLength(data, format)), Counter(Wrap32(c.next + 1)))
  }

  /** The constructor the converter uses: the track is not modified. */
  function Ingest(c: Counter, name: string, data: seq<SByte>, format: Format): (r: (Track, Counter))
    ensures r.0.id == c.next && r.1.next == Wrap32(c.next + 1)
    ensures r.0.name == name && r.0.data == data && r.0.format == format
    ensures !r.0.modified
    ensures Consistent(r.0)
  {
    NewTrack(c, name, data, format, false)
  }

  /** The constructor the effects use: name and format come from the source
      track, the data is new, and the track is marked modified. */
  function Derive(c: Counter, t: Track, data: seq<SByte>): (r: (Track, Counter))
    ensures r.0.id == c.next && r.1.next == Wrap32(c.next + 1)
    ensures r.0.name == t.name && r.0.format == t.format && r.0.data == data
    ensures r.0.modified
    ensures Consistent(r.0)
  {
    NewTrack(c, t.name, data, t.format, true)
  }

  /** A track built by a constructor reports the length it stored. */
  lemma GetLengthIsStored(t: Track)
    requires Consistent(t)
    ensures GetLength(t) == t.length
  {
  }

  /** Deriving from a track with the same data keeps its length: the length
      depends only on the data and the inherited format. */
  lemma DeriveKeepsLength(c: Counter, t: Track)
    requires Consistent(t)
    ensures Derive(c, t, t.data).0.length == t.length
  {
  }

  /** Lengths add up: the length of joined data is the sum of the lengths. */
  lemma LengthAdds(a: seq<SByte>, b: seq<SByte>, f: Format)
    requires BytesPerSecond(f) != 0.0
    ensures UpdateLength(a + b, f).value == UpdateLength(a, f).value + UpdateLength(b, f).value
  {
    DivAdd(|a| as real, |b| as real, BytesPerSecond(f));
  }

  lemma DivAdd(x: real, y: real, d: real)
    requires d != 0.0
    ensures (x + y) / d == x / d + y / d
  {
  }

  /** For a usual format (positive rate, size and channel count, no
      overflow) the length is never negative and grows with the data. */
  lemma LengthNonNegative(data: seq<SByte>, f: Format)
    requires 1.0 <= f.sampleRate <= IntMax as real && f.sampleSizeInBits > 0 && f.channels > 0
    requires IntOfFloat(f.sampleRate) * f.sampleSizeInBits * f.channels <= IntMax
    ensures UpdateLength(data, f).Some? && UpdateLength(data, f).value >= 0.0
  {
    var r := IntOfFloat(f.sampleRate);
    assert 1 <= r;
    MulPositive(r, f.sampleSizeInBits);
    MulPositive(r * f.sampleSizeInBits, f.channels);
    assert Wrap32(r * f.sampleSizeInBits) == r * f.sampleSizeInBits;
    assert BytesPerSecond(f) > 0.0;
  }

  lemma MulPositive(a: int, b: int)
    requires a > 0 && b > 0
    ensures a <= a * b
  {
  }

  // ---------------------------------------------------------------- ids

  /** A request to build a track: by the converter, or by an effect from a
      source track. */
  datatype Request = IngestRequest(name: string, data: seq<SByte>, format: Format)
                   | DeriveRequest(source: Track, newData: seq<SByte>)

  function Build(c: Counter, q: Request): (r: (Track, Counter))
    ensures r.0.id == c.next && r.1.next == Wrap32(c.next + 1)
  {
    match q
    case IngestRequest(name, data, format) => Ingest(c, name, data, format)
    case DeriveRequest(t, data) => Derive(c, t, data)
  }

  /** The tracks a sequence of constructions builds, in order, and the counter
      after them. */
  function Session(c: Counter, qs: seq<Request>): (r: (seq<Track>, Counter))
    ensures |r.0| == |qs|
    decreases |qs|
  {
    if |qs| == 0 then ([], c)
    else
      var (t, c') := Build(c, qs[0]);
      var (ts, c'') := Session(c', qs[1..]);
      ([t] + ts, c'')
  }

  /** Until the counter reaches the top of the `int` range, the ids a session
      hands out are consecutive from the counter's value on. */
  lemma {:induction false} SessionIds(c: Counter, qs: seq<Request>)
    requires c.next + |qs| <= IntMax
    ensures forall i :: 0 <= i < |qs| ==> Session(c, qs).0[i].id == c.next + i
    ensures Session(c, qs).1.next == c.next + |qs|
    decreases |qs|
  {
    if |qs| > 0 {
      var (t, c') := Build(c, qs[0]);
      assert c'.next == c.next + 1;
      SessionIds(c', qs[1..]);
      var ts := Session(c', qs[1..]).0;
      assert Session(c, qs).0 == [t] + ts;
      forall i | 0 <= i < |qs|
        ensures Session(c, qs).0[i].id == c.next + i
      {
        if i > 0 {
          assert Session(c, qs).0[i] == ts[i - 1];
        }
      }
    }
  }

  /** From the start of the program, the first track gets id 1 and ids strictly
      increase, so no two tracks share one. */
  lemma IdsIncreaseFromOne(qs: seq<Request>)
    requires |qs| < IntMax
    ensures |qs| > 0 ==> Session(Initial, qs).0[0].id == 1
    ensures forall i, j :: 0 <= i < j < |qs| ==> Session(Initial, qs).0[i].id < Session(Initial, qs).0[j].id
  {
    SessionIds(Initial, qs);
  }

  /** Past the top of the `int` range the counter wraps to the most negative
      `int`, so ids stop increasing after 2^31 - 1 tracks. */
  lemma CounterWraps(name: string, data: seq<SByte>, format: Format)
    ensures Ingest(Counter(IntMax), name, data, format).0.id == IntMax
    ensures Ingest(Counter(IntMax), name, data, format).1.next == IntMin
  {
  }

  // ---------------------------------------------------------------- label

  function DigitChar(d: nat): (ch: char)
    requires d < 10
    ensures '0' <= ch <= '9'
    ensures (ch - '0') as int == d
  {
    ('0' as int + d) as char
  }

  function DigitValue(ch: char): nat
    requires '0' <= ch <= '9'
  {
    (ch - '0') as nat
  }

  /** The decimal digits of a natural number, most significant first. */
  function Digits(n: nat): (s: string)
    ensures |s| > 0
    ensures forall k :: 0 <= k < |s| ==> '0' <= s[k] <= '9'
  {
    if n < 10 then [DigitChar(n)] else Digits(n / 10) + [DigitChar(n % 10)]
  }

  /** Java's decimal text of an `int`. */
  function DecimalText(n: int): (s: string)
    ensures |s| > 0
    ensures forall k :: 0 <= k < |s| ==> s[k] == '-' || '0' <= s[k] <= '9'
  {
    if n < 0 then "-" + Digits(-n) else Digits(n)
  }

  function ParseDigits(s: string): nat
    requires forall k :: 0 <= k < |s| ==> '0' <= s[k] <= '9'
  {
    if |s| == 0 then 0 else ParseDigits(s[..|s| - 1]) * 10 + DigitValue(s[|s| - 1])
  }

  function ParseDecimal(s: string): int
    requires |s| > 0
    requires forall k :: 0 <= k < |s| ==> s[k] == '-' || '0' <= s[k] <= '9'
    requires forall k :: 1 <= k < |s| ==> '0' <= s[k] <= '9'
  {
    if s[0] == '-' then -(ParseDigits(s[1..]) as int) else ParseDigits(s)
  }

  lemma {:induction false} DigitsRoundTrip(n: nat)
    ensures ParseDigits(Digits(n)) == n
  {
    if n >= 10 {
      DigitsRoundTrip(n / 10);
      var s := Digits(n);
      assert s[..|s| - 1] == Digits(n / 10);
    }
  }

  /** The decimal text of an id reads back as that id. */
  lemma DecimalRoundTrip(n: int)
    ensures forall k :: 1 <= k < |DecimalText(n)| ==> '0' <= DecimalText(n)[k] <= '9'
    ensures ParseDecimal(DecimalText(n)) == n
  {
    if n < 0 {
      var d := Digits(-n);
      var s := "-" + d;
      assert DecimalText(n) == s;
      assert s[0] == '-' && s[1..] == d;
      DigitsRoundTrip(-n);
    } else {
      DigitsRoundTrip(n);
    }
  }

  /** `toString`: id, name and the stored length, with " (modified)" appended
      for a modified track. `lengthText` is the length as the source formats
      it with two decimals. */
  function ToString(t: Track, lengthText: string): (s: string)
    ensures |s| > |DecimalText(t.id)| && s[..|DecimalText(t.id)|] == DecimalText(t.id)
    ensures s[|DecimalText(t.id)|] == ':'
    ensures |s| == |DecimalText(t.id)| + |t.name| + |lengthText| + (if t.modified then 15 else 4) + 2
    ensures s[|DecimalText(t.id)|..|DecimalText(t.id)| + 2] == ": "
    ensures s[|DecimalText(t.id)| + 2..|DecimalText(t.id)| + 2 + |t.name|] == t.name
    ensures s[|DecimalText(t.id)| + 2 + |t.name|..|DecimalText(t.id)| + 4 + |t.name|] == " |"
    ensures s[|DecimalText(t.id)| + 4 + |t.name|..|DecimalText(t.id)| + 4 + |t.name| + |lengthText|] == lengthText
    ensures s[|DecimalText(t.id)| + 4 + |t.name| + |lengthText|..|DecimalText(t.id)| + 6 + |t.name| + |lengthText|] == " s"
  {
    var plain := DecimalText(t.id) + ": " + t.name + " |" + lengthText + " s";
    if t.modified then plain + " (modified)" else plain
  }

  predicate EndsWith(s: string, suffix: string) {
    |suffix| <= |s| && s[|s| - |suffix|..] == suffix
  }

  /** The label ends in " (modified)" exactly when the track is modified, and
      otherwise the two labels agree. */
  lemma ModifiedSuffix(t: Track, lengthText: string)
    ensures EndsWith(ToString(t, lengthText), " (modified)") <==> t.modified
    ensures ToString(t.(modified := true), lengthText) == ToString(t.(modified := false), lengthText) + " (modified)"
  {
    var s := ToString(t, lengthText);
    if !t.modified {
      assert s[|s| - 1] == 's' != " (modified)"[10];
    }
  }

  /** The position of the first colon, or the length when there is none. */
  function ColonIndex(s: string): (n: nat)
    ensures n <= |s|
  {
    if |s| == 0 || s[0] == ':' then 0 else 1 + ColonIndex(s[1..])
  }

  lemma {:induction false} ColonAfter(p: string, s: string)
    requires forall k :: 0 <= k < |p| ==> p[k] != ':'
    requires |p| < |s| && s[..|p|] == p && s[|p|] == ':'
    ensures ColonIndex(s) == |p|
  {
    if |p| > 0 {
      assert s[0] == p[0];
      assert s[1..][..|p| - 1] == p[1..];
      ColonAfter(p[1..], s[1..]);
    }
  }

  /** Two labels are equal only for the same id, whatever the names and
      lengths: the id is the text before the first colon. */
  lemma LabelsIdentifyTracks(t1: Track, t2: Track, text1: string, text2: string)
    ensures ToString(t1, text1) == ToString(t2, text2) ==> t1.id == t2.id
  {
    var s1, s2 := ToString(t1, text1), ToString(t2, text2);
    var p1, p2 := DecimalText(t1.id), DecimalText(t2.id);
    if s1 == s2 {
      ColonAfter(p1, s1);
      ColonAfter(p2, s2);
      assert p1 == s1[..|p1|] == p2;
      DecimalRoundTrip(t1.id);
      DecimalRoundTrip(t2.id);
    }
  }
}

=== FILE: waves.dfy ===
/** The in-memory audio buffer the effects work on (cut&play/src/wave/Wave.java):
    a sample rate and a little-endian byte buffer of 16-bit samples. The
    factory always fixes the resolution to two bytes per sample, so it is not
    a field here. Positions are whole units: `Modify` counts samples and `Cut`
    counts bytes, as the two loops of the source count their unit counters. */
module Waves {
  import opened Options
  import opened Pcm

  datatype Wave = Wave(rate: Int32, data: seq<SByte>)

  /** The decoded samples of a wave. */
  function SamplesOf(w: Wave): seq<int> {
    Samples(w.data)
  }

  /** The samples the wave's iterator yields: it advances two bytes before
      its first read, so the sample at index 0 is never produced. */
  function Iterated(w: Wave): (s: seq<int>)
    ensures |SamplesOf(w)| == 0 ==> s == []
    ensures |SamplesOf(w)| > 0 ==> |s| == |SamplesOf(w)| - 1
    ensures forall j :: 0 <= j < |s| ==> s[j] == SamplesOf(w)[j + 1]
  {
    if |SamplesOf(w)| == 0 then [] else SamplesOf(w)[1..]
  }

  /** Seconds to units: `seconds * rate * resolution / 4`. */
  function LengthFromSeconds(rate: int, seconds: real): (units: real)
    ensures rate >= 0 && seconds >= 0.0 ==> units >= 0.0
  {
    seconds * rate as real * 2.0 / 4.0
  }

  /** The byte rate `rate * resolution` that `getLengthInSec` and
      `secondsFromLength` divide by. It is a Java `int` product, which wraps
      once the rate reaches 2^30 in magnitude; `lengthFromSeconds` multiplies
      a double first and never wraps. */
  function ByteRate(rate: Int32): (b: Int32)
    ensures -0x4000_0000 <= rate < 0x4000_0000 <==> b == 2 * rate
  {
    Wrap32(2 * rate)
  }

  /** A rate whose byte rate is exact and non-zero: seconds and units then
      convert into each other without loss. */
  predicate ExactRate(rate: Int32) {
    rate != 0 && -0x4000_0000 <= rate < 0x4000_0000
  }

  /** Units to seconds: `4 * length / (rate * resolution)`, over the wrapped
      byte rate. */
  function SecondsFromLength(rate: Int32, length: int): real
    requires ByteRate(rate) != 0
  {
    4.0 * length as real / ByteRate(rate) as real
  }

  /** At an exact rate the two conversions are inverse to each other. A
      wrapped byte rate has the opposite sign to the rate and at most its
      magnitude, so a positive length comes back negative and at least as
      large. */
  lemma LengthSecondsRoundTrip(rate: Int32, length: int)
    requires ByteRate(rate) != 0
    ensures ExactRate(rate) ==> LengthFromSeconds(rate, SecondsFromLength(rate, length)) == length as real
    ensures !ExactRate(rate) && length > 0 ==> LengthFromSeconds(rate, SecondsFromLength(rate, length)) <= -(length as real)
  {
    var seconds := SecondsFromLength(rate, length);
    var b, r, l := ByteRate(rate) as real, rate as real, length as real;
    assert seconds * b == 4.0 * l;
    assert LengthFromSeconds(rate, seconds) == seconds * r / 2.0;
    if ExactRate(rate) {
      assert b == 2.0 * r;
    } else if length > 0 {
      WrappedByteRate(rate);
      BackNegative(seconds, r, b, l);
    }
  }

  /** Once `2 * rate` leaves the `int` range, the wrapped byte rate has the
      opposite sign to the rate and at most the magnitude of `2 * rate`. */
  lemma WrappedByteRate(rate: Int32)
    requires !ExactRate(rate) && ByteRate(rate) != 0
    ensures rate > 0 ==> ByteRate(rate) < 0 && 2 * (rate as int) >= -(ByteRate(rate) as int)
    ensures rate < 0 ==> ByteRate(rate) > 0 && -2 * (rate as int) >= ByteRate(rate) as int
  {
    if rate > 0 {
      assert ByteRate(rate) == 2 * (rate as int) - 0x1_0000_0000;
    } else {
      assert ByteRate(rate) == 2 * (rate as int) + 0x1_0000_0000;
    }
  }

  /** Seconds `seconds` measured over a byte rate `b` of the opposite sign to
      the rate and at most twice its magnitude convert back to at most `-l`
      units, where `seconds * b` is `4 * l`. */
  lemma BackNegative(seconds: real, r: real, b: real, l: real)
    requires l > 0.0 && seconds * b == 4.0 * l
    requires (r > 0.0 && b < 0.0 && 2.0 * r >= -b) || (r < 0.0 && b > 0.0 && -2.0 * r >= b)
    ensures seconds * r / 2.0 <= -l
  {
    if r > 0.0 {
      assert seconds < 0.0;
      assert seconds * (2.0 * r + b) <= 0.0;
    } else {
      assert seconds > 0.0;
      assert seconds * (2.0 * r + b) <= 0.0;
    }
  }

  /** Whether `modify(mapper)` maps every sample. Its window,
      `lengthFromSeconds(getLengthInSec())`, is `length * rate / ByteRate(rate)`
      units: the whole wave when the byte rate is non-zero and has the rate's
      sign. Otherwise it is negative, or NaN or negative infinity when the
      byte rate is 0, and it covers no sample. */
  predicate MapsWhole(rate: Int32) {
    ByteRate(rate) != 0 && (ByteRate(rate) > 0 <==> rate > 0)
  }

  /** The whole-wave window covers the wave exactly at the exact rates. */
  lemma MapsWholeExactly(rate: Int32)
    ensures MapsWhole(rate) <==> ExactRate(rate)
  {
    if !ExactRate(rate) && ByteRate(rate) != 0 {
      WrappedByteRate(rate);
    }
  }

  /** The window in units of a wave of `length` bytes, over a non-zero byte
      rate: at least the sample count when `MapsWhole` holds, and otherwise
      not positive. */
  lemma WholeWindow(rate: Int32, length: nat)
    requires ByteRate(rate) != 0
    ensures MapsWhole(rate) ==> LengthFromSeconds(rate, (2 * length) as real / ByteRate(rate) as real) >= (length / 2) as real
    ensures !MapsWhole(rate) ==> LengthFromSeconds(rate, (2 * length) as real / ByteRate(rate) as real) <= 0.0
  {
    MapsWholeExactly(rate);
    var b, r, l := ByteRate(rate) as real, rate as real, length as real;
    var seconds := (2 * length) as real / b;
    assert seconds * b == 4.0 * (l / 2.0);
    assert LengthFromSeconds(rate, seconds) == seconds * r / 2.0;
    if MapsWhole(rate) {
      assert b == 2.0 * r;
      assert seconds * r == l;
      assert (length / 2) as real * 2.0 <= l;
    } else if length > 0 {
      WrappedByteRate(rate);
      BackNegative(seconds, r, b, l / 2.0);
    }
  }


  /** `copy()`: a fresh wave with equal contents. */
  function Copy(w: Wave): (r: Wave)
    ensures r == w
  {
    Wave(w.rate, w.data)
  }

  /** `cut(startTime, duration)` in byte units: the first `start` bytes are kept,
      the next `duration` bytes dropped and the rest kept. The source throws
      when the cut reaches past the end (unless nothing is dropped). */
  function Cut(w: Wave, start: nat, duration: nat): (r: Wave)
    requires duration == 0 || start + duration <= |w.data|
    ensures r.rate == w.rate
    ensures |r.data| == |w.data| - duration
    ensures forall i :: 0 <= i < |r.data| && i < start ==> r.data[i] == w.data[i]
    ensures forall i :: start <= i < |r.data| ==> r.data[i] == w.data[i + duration]
  {
    if start + duration <= |w.data| then Wave(w.rate, w.data[..start] + w.data[start + duration..])
    else Copy(w)
  }

  /** Cutting at an even offset an even number of bytes removes whole samples. */
  lemma CutSamples(w: Wave, a: nat, b: nat)
    requires 2 * (a + b) <= |w.data|
    ensures SamplesOf(Cut(w, 2 * a, 2 * b)) == SamplesOf(w)[..a] + SamplesOf(w)[a + b..]
  {
    CutPairs(w, a, b);
    SplicedSamples(w.data, a, b);
  }

  lemma CutPairs(w: Wave, a: nat, b: nat)
    requires 2 * (a + b) <= |w.data|
    ensures Cut(w, 2 * a, 2 * b).data == w.data[..2 * a] + w.data[2 * (a + b)..]
  {
    assert 2 * a + 2 * b == 2 * (a + b);
  }

  /** The byte written at position `i` by `modify`: pairs before `start` and
      from `start + duration` on are copied, pairs in between are decoded,
      mapped and written back with the saturation; an odd trailing byte is
      never written and stays zero. */
  function ModifiedByte(d: seq<SByte>, i: nat, start: nat, duration: nat, f: int -> int): SByte
    requires i < |d|
  {
    var k := i / 2;
    if k >= |d| / 2 then 0
    else if start <= k < start + duration then
      var p := EncodeClip(f(Decode(d[2 * k], d[2 * k + 1])));
      if i % 2 == 0 then p.lo else p.hi
    else d[i]
  }

  /** `modify(startTime, duration, mapper)` in sample units. */
  function Modify(w: Wave, start: nat, duration: nat, f: int -> int): (r: Wave)
    ensures r.rate == w.rate && |r.data| == |w.data|
    ensures forall k :: 0 <= k < |SamplesOf(w)| ==>
      SamplesOf(r)[k] == (if start <= k < start + duration then Clip(f(SamplesOf(w)[k])) else SamplesOf(w)[k])
    ensures |w.data| % 2 == 1 ==> r.data[|w.data| - 1] == 0
  {
    ModifiedSamples(w.data, start, duration, f);
    Wave(w.rate, ModifiedData(w.data, start, duration, f))
  }

  /** The buffer `modify` writes, byte by byte. */
  function ModifiedData(d: seq<SByte>, start: nat, duration: nat, f: int -> int): (e: seq<SByte>)
    ensures |e| == |d|
    ensures forall i :: 0 <= i < |d| ==> e[i] == ModifiedByte(d, i, start, duration, f)
  {
    seq(|d|, i requires 0 <= i < |d| => ModifiedByte(d, i, start, duration, f))
  }

  lemma ModifiedSamples(d: seq<SByte>, start: nat, duration: nat, f: int -> int)
    ensures forall k :: 0 <= k < |d| / 2 ==>
      Samples(ModifiedData(d, start, duration, f))[k]
        == (if start <= k < start + duration then Clip(f(Samples(d)[k])) else Samples(d)[k])
  {
    var e := ModifiedData(d, start, duration, f);
    forall k | 0 <= k < |d| / 2
      ensures Samples(e)[k] == (if start <= k < start + duration then Clip(f(Samples(d)[k])) else Samples(d)[k])
    {
      SampleAt(e, k);
      SampleAt(d, k);
      ModifiedPair(d, k, start, duration, f);
    }
  }

  lemma ModifiedPair(d: seq<SByte>, k: nat, start: nat, duration: nat, f: int -> int)
    requires k < |d| / 2
    ensures Decode(ModifiedByte(d, 2 * k, start, duration, f), ModifiedByte(d, 2 * k + 1, start, duration, f))
         == (if start <= k < start + duration then Clip(f(Decode(d[2 * k], d[2 * k + 1]))) else Decode(d[2 * k], d[2 * k + 1]))
  {
    assert (2 * k) / 2 == k && (2 * k + 1) / 2 == k;
    assert (2 * k) % 2 == 0 && (2 * k + 1) % 2 == 1;
  }

  /** `modify(mapper)`: the window is the wave's length in seconds converted
      back to units. That is the whole wave when `MapsWhole` holds, and covers
      no sample otherwise: at rate 0 the length is infinite and the window
      NaN, and once the byte rate wraps the window is negative. */
  function ModifyAll(w: Wave, f: int -> int): (r: Wave)
    ensures r.rate == w.rate && |r.data| == |w.data|
    ensures MapsWhole(w.rate) ==> forall k :: 0 <= k < |SamplesOf(w)| ==> SamplesOf(r)[k] == Clip(f(SamplesOf(w)[k]))
    ensures !MapsWhole(w.rate) ==> SamplesOf(r) == SamplesOf(w)
  {
    Modify(w, 0, if MapsWhole(w.rate) then |w.data| / 2 else 0, f)
  }

  /** Mapping every sample to itself rewrites every complete pair with its own
      bytes; only an odd trailing byte is lost. */
  lemma ModifyAllIdentityBytes(w: Wave, f: int -> int)
    requires forall v :: -32768 <= v <= 32767 ==> f(v) == v
    ensures ModifyAll(w, f).data == w.data[..|w.data| / 2 * 2] + (if |w.data| % 2 == 1 then [0] else [])
  {
    var d := w.data;
    var r := ModifyAll(w, f).data;
    var e := d[..|d| / 2 * 2] + (if |d| % 2 == 1 then [0] else []);
    var n := if MapsWhole(w.rate) then |d| / 2 else 0;
    assert |r| == |e|;
    forall i | 0 <= i < |r|
      ensures r[i] == e[i]
    {
      assert r[i] == ModifiedByte(d, i, 0, n, f);
      IdentityByte(d, i, n, f);
    }
  }

  /** Mapping a pair's sample to itself writes that pair's own bytes back. */
  lemma IdentityByte(d: seq<SByte>, i: nat, n: nat, f: int -> int)
    requires forall v :: -32768 <= v <= 32767 ==> f(v) == v
    requires i < |d|
    ensures ModifiedByte(d, i, 0, n, f) == if i < |d| / 2 * 2 then d[i] else 0
  {
    var k := i / 2;
    if k < |d| / 2 && k < n {
      var v := Decode(d[2 * k], d[2 * k + 1]);
      assert f(v) == v;
      EncodeDecode(d[2 * k], d[2 * k + 1]);
      assert i == 2 * k || i == 2 * k + 1;
    }
  }

  /** The two byte-wise mixing operations. */
  datatype MixOp = Plus | Minus

  /** Saturation of one byte result to the Java `byte` range. */
  function SatByte(v: int): (b: SByte)
    ensures -128 <= v <= 127 ==> b == v
    ensures v > 127 ==> b == 127
    ensures v < -128 ==> b == -128
  {
    if v > 127 then 127 else if v < -128 then -128 else v
  }

  function Apply(op: MixOp, a: int, b: int): int {
    match op
    case Plus => a + b
    case Minus => a - b
  }

  /** `add(other)` / `subtract(other)`: the first `|other|` bytes of `base` are
      combined byte by byte with saturation, the rest are kept. The source
      throws when `other` is the longer wave. */
  function Mix(base: Wave, other: Wave, op: MixOp): (r: Option<Wave>)
    ensures r.Some? <==> |other.data| <= |base.data|
    ensures r.Some? ==> r.value.rate == base.rate && |r.value.data| == |base.data|
    ensures r.Some? ==> forall i :: 0 <= i < |other.data| ==>
      r.value.data[i] == SatByte(Apply(op, base.data[i], other.data[i]))
    ensures r.Some? ==> forall i :: |other.data| <= i < |base.data| ==> r.value.data[i] == base.data[i]
  {
    if |other.data| > |base.data| then None
    else
      var b, o := base.data, other.data;
      Some(Wave(base.rate, seq(|b|, i requires 0 <= i < |b| => if i < |o| then SatByte(Apply(op, b[i], o[i])) else b[i])))
  }
}
